=== FILE: README.md ===
# A verified model of a minimal slippy-map core

This project models the core of a small WebGL slippy-map library in
Dafny. It covers four areas.

- **The vector layer.** Its options are validated when the layer is built
  and again before every fetch. `fetchData` rebuilds the layer's tile cache
  from the tiles in view: it keeps cached entries, fetches the missing ones,
  and drops tiles that left the view. `abortFetch` drops the stored
  controller.
- **The fetch helpers.** `getTileURL` fills a URL template. `fetchTile`
  fills the same template in a different order. `geometryToVertices` builds
  the stride-3 vertex buffer that the shaders read from a Polygon or
  MultiPolygon.
- **The pointer transform.** `getClipSpacePosition` maps a pointer position
  on the page into clip space `[-1, 1]`, with the y axis pointing up.
- **The map camera.** `setZoom` and `flyTo` replace the renderer's camera
  and then rebuild its view matrix (`updateMatrix`). A new renderer starts
  at `{x: 0, y: 0, z: 0}`.

Modules, one per file:

- `Wrappers`: Option and Result types.
- `Constants`: configuration constants.
- `Strings`: JavaScript's `String.prototype.replace` with a string pattern.
- `Decimal`: `String(n)` for integers, and its parser.
- `Mercator`: the position and projection types shared with
  `MercatorCoordinate`.
- `Tiles`: the `x/y/z` tile key.
- `TileUrl`: the URL template.
- `Geometry`: the vertex buffers.
- `VectorLayers`: the vector layer.
- `Transform`: the pointer transform.
- `MapCamera`: the camera.

Several things are parameters of the model because they are I/O or
third-party code:

- `fetchTile` is a function from a request to an optional result.
  `None` means its promise rejects.
- earcut's triangulation, `MercatorCoordinate.fromLngLat` and
  `Math.pow(2, z)` are function parameters.
- The tiles in view are an argument.

The model follows the code as written:

- `setZoom` stores the requested zoom unclamped. `MIN_ZOOM` and `MAX_ZOOM`
  are declared but never applied (`MapCamera.SetZoomDoesNotClamp`).
- One rejected tile fetch rejects the whole `fetchData` call through
  `Promise.all`, and the layer keeps its old cache and controller. Failures
  are not isolated per tile.
- The tiles in view are not de-duplicated. Every cache test runs before any
  fetch resolves, so an uncached tile listed twice is fetched twice
  (`VectorLayers.MissingRequests`).
- `updateMatrix` builds the matrix from the camera alone. It does not
  correct for the canvas size or the tile size. The model uses the matrices
  that gl-matrix's `mat3.translate`, `mat3.scale`, `mat3.invert` and
  `mat3.multiply` compute.
- The option bounds are inclusive: `minZoom` 0 and `maxZoom` 22 are
  accepted, although the error messages say "greater than 0" and "less
  than 22".

## Model

| member | source | states |
|---|---|---|
| VectorLayers.MessageIdentifiesRule | src/layers/vector_layer.ts:29-32 | the four rules throw four different messages, so the message of a failed check names the rule that failed |
| VectorLayers.CheckOptions | src/layers/vector_layer.ts:28-33 | passes exactly when the URL is non-empty, the tile size is 256 or 512, minZoom >= 0 and maxZoom <= 22; on failure it reports a rule that is broken and no earlier rule is broken, so the first failing test wins |
| VectorLayers.ValidMeansNothingBroken | src/layers/vector_layer.ts:28-33 | the options are valid if and only if none of the four rules is broken |
| VectorLayers.ZoomBoundsInclusiveAndUnordered | src/layers/vector_layer.ts:31-32 | minZoom 0 and maxZoom 22 are accepted, and a minZoom above the maxZoom is not rejected |
| VectorLayers.DefaultOptionsValid | src/constants.ts:10-14 | the default tile size 512, minZoom 0 and maxZoom 22 pass the option check with any non-empty URL |
| VectorLayers.NewVectorLayer | src/layers/vector_layer.ts:18-26 | construction succeeds exactly when the options are valid; otherwise it throws the error `checkOptions` throws; a new layer keeps its id and options and has an empty cache and no controller |
| VectorLayers.ConstructedLayerPassesRecheck | src/layers/vector_layer.ts:18-36 | a layer that was constructed never fails the option check `fetchData` repeats; it can only fail through a tile fetch |
| VectorLayers.MissingRequests | src/layers/vector_layer.ts:41-52 | every fetch is for a tile in view whose key has no cached entry, and carries the layer URL and the layer names; every such tile is fetched; a tile listed k times is fetched k times if uncached and never if cached, so there are no more fetches than tiles |
| VectorLayers.Rebuild | src/layers/vector_layer.ts:39-53 | the new cache has exactly the keys of the tiles in view; each tile's entry is its cached value if it has one, otherwise its fetch result |
| VectorLayers.FetchData | src/layers/vector_layer.ts:35-58 | invalid options reject the call before any fetch; the call resolves if and only if the options pass and every missing tile's fetch resolves; a rejected call leaves the layer unchanged; a resolved call stores the new cache and a controller and keeps the id and options |
| VectorLayers.FetchDataDropsStale | src/layers/vector_layer.ts:39-43 | after a resolved call, a cached key that belongs to no tile in view is gone |
| VectorLayers.FetchDataReusesCached | src/layers/vector_layer.ts:43-47 | a tile in view with a cached entry keeps that entry and is not fetched |
| VectorLayers.FetchDataFetchesMissing | src/layers/vector_layer.ts:48-52 | a tile in view without an entry is fetched with the layer's URL and layer names, and a resolved call stores that fetch's result under its key |
| VectorLayers.FetchDataIdempotent | src/layers/vector_layer.ts:35-58 | a second `fetchData` over the same tiles issues no fetch, cannot fail, and resolves with the same cache and layer; the fresh controller the source stores is not told apart from the old one |
| VectorLayers.NothingMissing | src/layers/vector_layer.ts:43-47 | when every tile in view has a cached entry, no fetch is issued |
| VectorLayers.FullCacheRebuildsToItself | src/layers/vector_layer.ts:39-47 | a cache whose keys are exactly the tiles in view is rebuilt unchanged, and no fetch result is needed |
| VectorLayers.SameKeySameTile | src/layers/vector_layer.ts:42 | two tiles in view that share a key are the same tile, so both writes for a tile listed twice go to that tile's one key; the model's fetch gives both the same answer, while in the source the later response is kept |
| VectorLayers.AbortFetch | src/layers/vector_layer.ts:60-65 | afterwards there is no controller, and the id, options and cache are unchanged; with no controller the layer is returned as it is |
| VectorLayers.AbortFetchIdempotent | src/layers/vector_layer.ts:60-65 | aborting twice is the same as aborting once |
| Tiles.ParseTileKeyRoundTrip | src/layers/vector_layer.ts:42 | the key `x/y/z` that `TileKey` builds with `tile.join('/')` parses back to the tile it came from, negative coordinates included |
| Tiles.TileKeyInjective | src/layers/vector_layer.ts:42 | two tiles have the same key if and only if they are the same tile |
| Decimal.DecimalString | src/utils/fetch-data.ts:54 | `String(n)` is a leading minus sign exactly when n is negative, followed by digits with no leading zero (a lone `0` aside, and never `-0`) |
| Decimal.CanonicalIsPrinted | src/utils/fetch-data.ts:54 | every text of that form is `String(n)` for the integer it denotes, so the printed forms are exactly these texts |
| Decimal.ParseDecimalString | src/utils/fetch-data.ts:54 | reading the printed integer back gives the integer |
| Decimal.DecimalStringInjective | src/utils/fetch-data.ts:54-56 | two integers print the same if and only if they are equal |
| Strings.ReplaceFirst | src/utils/fetch-data.ts:54 | `replace` with a string pattern leaves a string without the pattern unchanged, and otherwise splices the replacement in place of the first occurrence only |
| Strings.IndexOf | src/utils/fetch-data.ts:54 | the search finds the first occurrence of the pattern, or reports that the pattern occurs nowhere |
| TileUrl.GetTileUrl | src/utils/fetch-data.ts:52-57 | a template without `{x}`, `{y}` or `{z}` comes back unchanged |
| TileUrl.FetchTileUrl | src/utils/fetch-data.ts:61 | the URL `fetchTile` requests (filled z, x, y) equals `getTileURL` (filled x, y, z) for every template and tile |
| TileUrl.TileUrlFillsEveryPlaceholder | src/utils/fetch-data.ts:52-57 | when each placeholder occurs at most once in the template, none is left in the URL |
| Geometry.Flatten | src/utils/fetch-data.ts:14 | flattening throws exactly when there is no first position; otherwise position k of ring r sits at slots 2(s+k) and 2(s+k)+1, where s is the number of positions of the rings before r; there is one hole offset per ring after the first, and it is that ring's s; the dimension is 2 |
| Geometry.FlattenRings | src/utils/fetch-data.ts:14 | the coordinates of all rings, in ring order, two per position |
| Geometry.FlattenHolesStartRings | src/utils/fetch-data.ts:14-15 | the hole offsets never decrease, and each points at the first coordinate of the ring it starts |
| Geometry.FlattenRing | src/utils/fetch-data.ts:14 | each position of a ring becomes its lng then its lat, in order |
| Geometry.TriangleBuffer | src/utils/fetch-data.ts:17-26 | the buffer has three slots per triangle corner: slots 3i and 3i+1 hold the projection of corner i, read from its two flattened coordinates, and slot 3i+2 holds 1.0 |
| Geometry.FlattenIsShaped | src/utils/fetch-data.ts:14 | the flattened data has whole positions and every hole offset within it, the input shape under which earcut's corners are assumed in range |
| Geometry.VerticesFromPolygon | src/utils/fetch-data.ts:13-28 | throws exactly when flattening throws, with earcut taken as never throwing; otherwise every corner earcut returns is in range, and the buffer has the triangle layout |
| Geometry.OuterRingBuffer | src/utils/fetch-data.ts:36-37 | a polygon's buffer throws exactly when it has no outer ring or an empty one; otherwise it has the stride-3 layout |
| Geometry.ConcatAll | src/utils/fetch-data.ts:36-44 | the concatenation of the per-polygon buffers exists if and only if no polygon throws |
| Geometry.GeometryBuffer | src/utils/fetch-data.ts:30-49 | a Polygon throws exactly when it has no first position, with earcut taken as never throwing; a MultiPolygon throws exactly when one of its polygons has no outer ring or an empty one; any other geometry gives an empty buffer; every buffer has a length divisible by 3 and 1.0 in every third slot |
| Geometry.AccumulateOuterRings | src/utils/fetch-data.ts:34-46 | the loop that appends each polygon's outer-ring buffer gives the buffers concatenated in order, or a throw if any polygon throws |
| Geometry.GeometryToVertices | src/utils/fetch-data.ts:12-50 | a Polygon gives its `verticesFromPolygon` buffer; a MultiPolygon's loop gives the outer-ring buffers concatenated in order; any other geometry gives an empty buffer; every buffer has a 1.0 in every third slot |
| Geometry.AppendEach | src/utils/fetch-data.ts:41-43 | appending the values one at a time gives the old positions followed by the new vertices |
| Geometry.OuterRingBuffersAppend | src/utils/fetch-data.ts:34-46 | the MultiPolygon buffer of two polygon lists joined is the first list's buffer followed by the second's |
| Geometry.OuterRingBuffersIgnoreHoles | src/utils/fetch-data.ts:37 | the holes of a MultiPolygon's polygons never affect its buffer: only the outer rings do |
| Transform.ClipSpacePosition | src/utils/transform.ts:1-11 | clip x + 1 scaled by the width is twice the offset from the left edge, and 1 - clip y scaled by the height is twice the offset from the top; the left, right, top and bottom edges map exactly to -1, 1, 1 and -1, and a point lies in [-1, 1] if and only if it lies on the canvas |
| Transform.CentreIsOrigin | src/utils/transform.ts:4-9 | the centre of the canvas maps to the clip-space origin |
| Transform.ClipMonotone | src/utils/transform.ts:4-9 | moving right increases clip x; moving down decreases clip y |
| Transform.ClipSpaceRoundTrip | src/utils/transform.ts:4-9 | the conversion is a bijection: mapping back to page coordinates recovers the pointer, and every clip point comes from exactly one pointer position |
| MapCamera.ZoomScale | src/webgl/renderer.ts:53 | the zoom scale is positive and the reciprocal of 2^z |
| MapCamera.CameraMatrix | src/webgl/renderer.ts:51-54 | the camera matrix sends a view point p to the camera position plus p times the zoom scale |
| MapCamera.InverseCamera | src/webgl/renderer.ts:58 | the inverted camera matrix is a two-sided inverse of the translate-then-scale camera matrix |
| MapCamera.UpdateMatrix | src/webgl/renderer.ts:50-60 | the view matrix undoes the camera matrix |
| MapCamera.ViewCentresCamera | src/webgl/renderer.ts:50-60 | the view matrix sends the camera position to the clip-space origin, and a point one zoom scale to its right to clip x = 1 |
| MapCamera.InitialRenderer | src/webgl/renderer.ts:13-17 | a new renderer's camera is {0, 0, 0} and its matrix matches that camera |
| MapCamera.InitialViewIsIdentity | src/webgl/renderer.ts:13-18 | with 2^0 = 1, the initial view matrix is the identity that `mat3.create()` gives |
| MapCamera.SetZoom | src/map.ts:26-32 | keeps the camera's x and y, stores the requested zoom, and leaves the matrix in sync with the new camera |
| MapCamera.FlyTo | src/map.ts:34-40 | moves the camera's x and y to the projected centre, keeps the zoom, and leaves the matrix in sync |
| MapCamera.SetZoomDoesNotClamp | src/map.ts:26-32 | a zoom above `MAX_ZOOM` or below `MIN_ZOOM` is stored as it is |
| MapCamera.ZoomFlyCommute | src/map.ts:26-40 | zooming then flying gives the same renderer as flying then zooming |
| MapCamera.LastCallWins | src/map.ts:26-40 | of two zooms only the last counts, and of two flights only the last counts, so repeating a call with the same argument changes nothing |
| MapCamera.RunCamera | src/map.ts:26-40 | after any sequence of zooms and flights from a synced renderer, the matrix matches the camera, the zoom is the last one requested, and x and y are the projection of the last centre requested |
| MapCamera.RunFromStart | src/map.ts:26-40 | from a new renderer, any call sequence leaves the matrix in sync, with zoom 0 if no zoom was requested |

## Left out

- WebGL (shaders, buffers, `draw`, `init`'s GL calls) and the DOM setup of `Map`: they are I/O with no logic to verify. The canvas rectangle and sizes are parameters of `Transform`.
- The network, `arrayBuffer`, protobuf decoding and the vector-tile to GeoJSON conversion inside `fetchTile`: they are foreign code. `fetchTile` is a parameter returning an optional result. The per-layer feature loop of `fetchTile` (fetch-data.ts:66-81) is covered only by the layer names passed in each request.
- `Renderer.getTilesInView` is not part of this model. The tiles in view are an argument of `VectorLayers.FetchData`.
- `Map.addPoint` and `Map.addPolygon` are left out: they only push data to the GPU.
- `MercatorCoordinate.fromLngLat` is not part of this model. It is a projection parameter of `Geometry` and of `MapCamera.FlyTo`.
- earcut's triangulation is a parameter. The model asks only that, on input shaped as `earcut.flatten` gives it (an even number of coordinates and hole offsets within the data), its corners index that input, which earcut guarantees. `earcut.flatten` is modelled for the two-dimensional positions that vector tiles produce.
- AbortController signalling: nothing in the code passes the controller to a fetch. The model's `AbortController` has a single value, so the model does not tell apart the fresh `new AbortController()` that each resolved call stores (vector_layer.ts:40, 55).
- VectorLayers.FetchDataIdempotent: its "same layer" holds only because controller identity is not modelled; the source stores a new controller on the second call.
- VectorLayers.FetchData: `fetchTile` is modelled as a function of its request, so the two fetches of an uncached tile listed twice get the same answer. In the source they are separate promises. Both write `tileData[tileKey]` (vector_layer.ts:48), so the response that resolves last is kept. If either copy rejects, `Promise.all` (line 54) rejects the whole call. The order in which responses arrive is not modelled either.
- Geometry.VerticesFromPolygon: earcut is modelled as a total function that never throws, so the throw condition is flattening's alone. Real earcut throws on a hole ring with no positions: `Polygon([[a, b, c], []])` flattens to hole offsets `[3]`, and `eliminateHoles` then reads `next` of the undefined list it builds over the empty range. Vector-tile decoding drops zero-area rings, so `fetchTile` does not pass such a ring.
- Geometry.GeometryBuffer: for the same reason, a Polygon with an empty hole ring is said to give a buffer, while the source throws inside earcut.
- Floating point: coordinates, zooms and matrices are reals. Float32 rounding of the vertex buffers and NaN or infinite inputs are not modelled.
- Transform.ClipSpacePosition: requires a canvas with positive width and height. A hidden canvas divides by zero in the source, giving infinities or NaN.
- MapCamera.UpdateMatrix: `Math.pow(2, z)` is a parameter that is positive for every zoom, not the exact real power.
- Decimal.DecimalString: models `String(n)` for integers only. The exponent form JavaScript prints for magnitudes of 10^21 and above is not modelled.
- Strings.ReplaceFirst: requires a replacement without `$`, so JavaScript's `$&`-style replacement patterns are not modelled. Printed integers never contain `$`.
- A cached entry counts as present whatever its value. Every entry is a `fetchTile` result, which is a plain object and so truthy, so this matches the source's truthiness test.

=== FILE: constants.dfy ===
/** The configuration constants of the map (src/constants.ts). */
module Constants {

  /** Zoom bounds of the renderer; declared but never applied by `setZoom`. */
  const MinZoom: real := 0.0
  const MaxZoom: real := 16.0

  /** The keys of `LAYERS`, in declaration order: the vector-tile layers
      every tile fetch asks for. The RGBA colours are drawing data only. */
  const LayerNames: seq<string> := ["water", "landcover", "park"]

  /** `DEFAULT_VECTOR_LAYER_OPTIONS`. */
  const DefaultTileSize: real := 512.0
  const DefaultMinZoom: real := 0.0
  const DefaultMaxZoom: real := 22.0
}

=== FILE: decimal.dfy ===
/** JavaScript's `String(n)` for an integer `n` (decimal digits, a leading
    `-` when negative), and the parser that inverts it. */
module Decimal {
  import opened Wrappers

  predicate IsDigit(c: char)
  {
    '0' <= c <= '9'
  }

  predicate AllDigits(s: string)
  {
    forall i :: 0 <= i < |s| ==> IsDigit(s[i])
  }

  /** The characters `String(n)` can produce for an integer: digits and the
      minus sign, never a brace, a slash or a `$`. */
  predicate DecimalText(s: string)
  {
    |s| > 0 && forall i :: 0 <= i < |s| ==> IsDigit(s[i]) || s[i] == '-'
  }

  function DigitChar(d: int): (c: char)
    requires 0 <= d < 10
    ensures IsDigit(c)
  {
    (d + '0' as int) as char
  }

  function DigitValue(c: char): (d: int)
    requires IsDigit(c)
    ensures 0 <= d < 10
  {
    c as int - '0' as int
  }

  /** The text `String(n)` prints: an optional minus sign, then digits with
      no leading zero (a lone `0` aside), and never `-0`. */
  predicate CanonicalDecimal(s: string)
  {
    if |s| > 0 && s[0] == '-' then |s| > 1 && AllDigits(s[1..]) && s[1] != '0'
    else |s| > 0 && AllDigits(s) && (|s| > 1 ==> s[0] != '0')
  }

  /** Decimal digits of a natural number, most significant first. */
  function NatString(n: nat): (s: string)
    ensures |s| > 0 && AllDigits(s)
    ensures s[0] == '0' <==> n == 0
    ensures |s| > 1 ==> s[0] != '0'
    decreases n
  {
    if n < 10 then [DigitChar(n)] else NatString(n / 10) + [DigitChar(n % 10)]
  }

  /** `String(n)` for an integer `n`. */
  function DecimalString(n: int): (s: string)
    ensures DecimalText(s)
    ensures n >= 0 <==> AllDigits(s)
    ensures n < 0 <==> s[0] == '-'
    ensures n < 0 ==> |s| > 1 && AllDigits(s[1..]) && s[1] != '0'
    ensures n >= 0 && |s| > 1 ==> s[0] != '0'
    ensures CanonicalDecimal(s)
  {
    if n < 0 then
      var s := "-" + NatString(-n);
      assert !IsDigit(s[0]);
      assert s[1..] == NatString(-n);
      s
    else NatString(n)
  }

  function ParseNat(s: string): nat
    requires AllDigits(s)
    decreases |s|
  {
    if |s| == 0 then 0 else ParseNat(s[..|s| - 1]) * 10 + DigitValue(s[|s| - 1])
  }

  /** Reads back an optionally signed decimal integer; `None` for anything
      else (the empty string, a lone `-`, a stray character). */
  function ParseInt(s: string): Option<int>
  {
    if |s| > 0 && s[0] == '-' then
      if |s| > 1 && AllDigits(s[1..]) then
        var magnitude: int := ParseNat(s[1..]);
        Some(-magnitude)
      else None
    else if |s| > 0 && AllDigits(s) then Some(ParseNat(s))
    else None
  }

  lemma {:induction false} ParseNatString(n: nat)
    ensures ParseNat(NatString(n)) == n
    decreases n
  {
    if n >= 10 {
      var s := NatString(n);
      assert s[..|s| - 1] == NatString(n / 10);
      ParseNatString(n / 10);
    }
  }

  /** Parsing undoes `String(n)`, so distinct integers print differently. */
  lemma ParseDecimalString(n: int)
    ensures ParseInt(DecimalString(n)) == Some(n)
  {
    var s := DecimalString(n);
    if n < 0 {
      assert s[1..] == NatString(-n);
      ParseNatString(-n);
    } else {
      ParseNatString(n);
    }
  }

  lemma DecimalStringInjective(m: int, n: int)
    ensures DecimalString(m) == DecimalString(n) <==> m == n
  {
    if DecimalString(m) == DecimalString(n) {
      ParseDecimalString(m);
      ParseDecimalString(n);
    }
  }

  /** A number whose first digit is not `0` is positive. */
  lemma {:induction false} ParseNatPositive(s: string)
    requires |s| > 0 && AllDigits(s) && s[0] != '0'
    ensures ParseNat(s) > 0
    decreases |s|
  {
    if |s| > 1 {
      var init := s[..|s| - 1];
      assert init[0] == s[0];
      ParseNatPositive(init);
    }
  }

  /** Digits without a leading zero are the printed form of their value. */
  lemma {:induction false} NatStringOfDigits(s: string)
    requires |s| > 0 && AllDigits(s) && (|s| > 1 ==> s[0] != '0')
    ensures NatString(ParseNat(s)) == s
    decreases |s|
  {
    var last := s[|s| - 1];
    if |s| == 1 {
      assert DigitChar(DigitValue(last)) == last;
    } else {
      var init := s[..|s| - 1];
      assert init[0] == s[0];
      ParseNatPositive(init);
      NatStringOfDigits(init);
      var n := ParseNat(s);
      assert n / 10 == ParseNat(init) && n % 10 == DigitValue(last);
      assert DigitChar(DigitValue(last)) == last;
      assert s == init + [last];
    }
  }

  /** Every canonical decimal text is what `String` prints for its value, so
      `DecimalString` produces exactly the canonical texts. */
  lemma CanonicalIsPrinted(s: string)
    requires CanonicalDecimal(s)
    ensures ParseInt(s).Some? && DecimalString(ParseInt(s).value) == s
  {
    if s[0] == '-' {
      var digits := s[1..];
      assert digits[0] == s[1];
      ParseNatPositive(digits);
      NatStringOfDigits(digits);
      assert s == "-" + digits;
    } else {
      NatStringOfDigits(s);
    }
  }
}

=== FILE: geometry.dfy ===
/** The vertex buffers of `geometryToVertices` (src/utils/fetch-data.ts):
    each triangle corner of a polygon becomes three consecutive numbers,
    the projected `x`, `y` and a constant `1.0`. Triangulation and the
    mercator projection are parameters. */
module Geometry {
  import opened Wrappers
  import opened Mercator

  type Ring = seq<Position>

  /** The GeoJSON geometry of a feature: the two polygon kinds, and one
      case for every `type` other than "Polygon" and "MultiPolygon". */
  datatype Geometry =
    | Polygon(rings: seq<Ring>)
    | MultiPolygon(polygons: seq<seq<Ring>>)
    | OtherGeometry

  /** What `earcut.flatten` returns: every coordinate in ring order, the
      position index at which each hole starts, and the dimension. */
  datatype Flattened = Flattened(vertices: seq<real>, holes: seq<nat>, dimensions: nat)

  /** `earcut(vertices, holes, 2)`: triangle corners as position indices. */
  type Triangulator = (seq<real>, seq<nat>) -> seq<nat>

  /** What earcut guarantees of its output on input shaped as
      `earcut.flatten` gives it (whole positions, hole offsets inside the
      data): every corner names a position of that input, so both of its
      coordinates can be read. */
  ghost predicate IndexesVertices(triangulate: Triangulator)
  {
    forall v: seq<real>, h: seq<nat>, i ::
      FlattenShaped(v, h) && 0 <= i < |triangulate(v, h)| ==> 2 * triangulate(v, h)[i] + 1 < |v|
  }

  /** Whole positions, and every hole offset inside the data. */
  predicate FlattenShaped(v: seq<real>, h: seq<nat>)
  {
    |v| % 2 == 0 && forall j :: 0 <= j < |h| ==> h[j] <= |v| / 2
  }

  function PositionCount(rings: seq<Ring>): nat
  {
    if |rings| == 0 then 0 else PositionCount(rings[..|rings| - 1]) + |rings[|rings| - 1]|
  }

  /** The positions of a prefix of the rings never outnumber those of a
      longer prefix. */
  lemma {:induction false} PositionCountMonotone(rings: seq<Ring>, i: nat, j: nat)
    requires i <= j <= |rings|
    ensures PositionCount(rings[..i]) <= PositionCount(rings[..j])
    decreases j - i
  {
    if i < j {
      PositionCountMonotone(rings, i, j - 1);
      assert rings[..j][..j - 1] == rings[..j - 1];
    }
  }

  /** The position at which ring `r` starts in the flattened rings: the
      number of positions of the rings before it. */
  function RingStart(rings: seq<Ring>, r: nat): (start: nat)
    requires r < |rings|
    ensures start + |rings[r]| <= PositionCount(rings)
  {
    PositionCountMonotone(rings, r + 1, |rings|);
    assert rings[..r + 1][..r] == rings[..r];
    assert rings[..|rings|] == rings;
    PositionCount(rings[..r])
  }

  /** The coordinates of one ring, `lng` then `lat` for each position. */
  function FlattenRing(ring: Ring): (v: seq<real>)
    ensures |v| == 2 * |ring|
    ensures forall k :: 0 <= k < |ring| ==> v[2 * k] == ring[k].0 && v[2 * k + 1] == ring[k].1
  {
    if |ring| == 0 then []
    else FlattenRing(ring[..|ring| - 1]) + [ring[|ring| - 1].0, ring[|ring| - 1].1]
  }

  /** Position `k` of ring `r` sits at slots `2 * (RingStart(rings, r) + k)`
      and the next one of `v`. */
  ghost predicate RingsLaidOut(v: seq<real>, rings: seq<Ring>)
  {
    forall r, k :: 0 <= r < |rings| && 0 <= k < |rings[r]| ==> LaidOutAt(v, rings, r, k)
  }

  ghost predicate LaidOutAt(v: seq<real>, rings: seq<Ring>, r: nat, k: nat)
    requires r < |rings| && k < |rings[r]|
  {
    2 * (RingStart(rings, r) + k) + 1 < |v|
    && v[2 * (RingStart(rings, r) + k)] == rings[r][k].0 && v[2 * (RingStart(rings, r) + k) + 1] == rings[r][k].1
  }

  /** The coordinates of all rings in order: position `k` of ring `r` is
      position `RingStart(rings, r) + k` of the whole. */
  function FlattenRings(rings: seq<Ring>): (v: seq<real>)
    ensures |v| == 2 * PositionCount(rings)
    ensures RingsLaidOut(v, rings)
  {
    if |rings| == 0 then []
    else
      var n := |rings| - 1;
      var init, last := FlattenRings(rings[..n]), FlattenRing(rings[n]);
      AppendRingLaidOut(rings, init, last);
      init + last
  }

  /** Appending the coordinates of the last ring to those of the others. */
  lemma AppendRingLaidOut(rings: seq<Ring>, init: seq<real>, last: seq<real>)
    requires |rings| > 0
    requires |init| == 2 * PositionCount(rings[..|rings| - 1]) && RingsLaidOut(init, rings[..|rings| - 1])
    requires |last| == 2 * |rings[|rings| - 1]|
    requires forall k :: 0 <= k < |rings[|rings| - 1]| ==>
      last[2 * k] == rings[|rings| - 1][k].0 && last[2 * k + 1] == rings[|rings| - 1][k].1
    ensures RingsLaidOut(init + last, rings)
  {
    var n := |rings| - 1;
    forall r, k | 0 <= r < |rings| && 0 <= k < |rings[r]|
      ensures LaidOutAt(init + last, rings, r, k)
    {
      if r < n {
        EarlierRingLaidOut(rings, init, last, r, k);
      } else {
        LastRingLaidOut(rings, init, last, k);
      }
    }
  }

  lemma EarlierRingLaidOut(rings: seq<Ring>, init: seq<real>, last: seq<real>, r: nat, k: nat)
    requires r < |rings| - 1 && k < |rings[r]|
    requires RingsLaidOut(init, rings[..|rings| - 1])
    ensures 2 * (RingStart(rings, r) + k) + 1 < |init|
    ensures (init + last)[2 * (RingStart(rings, r) + k)] == rings[r][k].0
    ensures (init + last)[2 * (RingStart(rings, r) + k) + 1] == rings[r][k].1
  {
    var prefix := rings[..|rings| - 1];
    assert prefix[..r] == rings[..r];
    assert RingStart(prefix, r) == RingStart(rings, r);
    assert prefix[r][k] == rings[r][k];
    assert LaidOutAt(init, prefix, r, k);
  }

  lemma LastRingLaidOut(rings: seq<Ring>, init: seq<real>, last: seq<real>, k: nat)
    requires |rings| > 0 && k < |rings[|rings| - 1]|
    requires |init| == 2 * PositionCount(rings[..|rings| - 1])
    requires |last| == 2 * |rings[|rings| - 1]|
    requires last[2 * k] == rings[|rings| - 1][k].0 && last[2 * k + 1] == rings[|rings| - 1][k].1
    ensures 2 * (RingStart(rings, |rings| - 1) + k) + 1 < |init + last|
    ensures (init + last)[2 * (RingStart(rings, |rings| - 1) + k)] == rings[|rings| - 1][k].0
    ensures (init + last)[2 * (RingStart(rings, |rings| - 1) + k) + 1] == rings[|rings| - 1][k].1
  {
    var j := 2 * (RingStart(rings, |rings| - 1) + k);
    assert j == |init| + 2 * k;
    assert (init + last)[j] == last[2 * k];
    assert (init + last)[j + 1] == last[2 * k + 1];
  }

  /** The start of every ring after the first, counted in positions. */
  function HoleIndices(rings: seq<Ring>): (h: seq<nat>)
    ensures |h| == if |rings| == 0 then 0 else |rings| - 1
  {
    if |rings| == 0 then []
    else seq(|rings| - 1, i requires 0 <= i < |rings| - 1 => PositionCount(rings[..i + 1]))
  }

  /** `earcut.flatten(rings)` for two-dimensional positions. It reads the
      dimension from the first position of the first ring and so throws
      (`None`) when there is none. Otherwise the vertices are every ring's
      coordinates in ring order, and hole `i` starts at the position where
      ring `i + 1` begins: the number of positions of the rings before it. */
  function Flatten(rings: seq<Ring>): (r: Option<Flattened>)
    ensures r.None? <==> |rings| == 0 || |rings[0]| == 0
    ensures r.Some? ==> |r.value.vertices| == 2 * PositionCount(rings) && r.value.dimensions == 2
    ensures r.Some? ==> RingsLaidOut(r.value.vertices, rings)
    ensures r.Some? ==> |r.value.holes| == |rings| - 1
    ensures r.Some? ==> forall i :: 0 <= i < |r.value.holes| ==> r.value.holes[i] == RingStart(rings, i + 1)
  {
    if |rings| == 0 || |rings[0]| == 0 then None
    else
      var holes := HoleIndices(rings);
      assert forall i :: 0 <= i < |holes| ==> holes[i] == RingStart(rings, i + 1);
      Some(Flattened(FlattenRings(rings), holes, 2))
  }

  /** The hole offsets of `earcut.flatten` never decrease, and each points
      at the first coordinate of the ring it starts. */
  lemma FlattenHolesStartRings(rings: seq<Ring>)
    requires Flatten(rings).Some?
    ensures var f := Flatten(rings).value;
      && (forall i, j :: 0 <= i <= j < |f.holes| ==> f.holes[i] <= f.holes[j])
      && (forall i :: 0 <= i < |f.holes| && |rings[i + 1]| > 0 ==>
            2 * f.holes[i] + 1 < |f.vertices|
            && f.vertices[2 * f.holes[i]] == rings[i + 1][0].0 && f.vertices[2 * f.holes[i] + 1] == rings[i + 1][0].1)
  {
    var f := Flatten(rings).value;
    forall i, j | 0 <= i <= j < |f.holes|
      ensures f.holes[i] <= f.holes[j]
    {
      PositionCountMonotone(rings, i + 1, j + 1);
    }
    forall i | 0 <= i < |f.holes| && |rings[i + 1]| > 0
      ensures 2 * f.holes[i] + 1 < |f.vertices|
      ensures f.vertices[2 * f.holes[i]] == rings[i + 1][0].0 && f.vertices[2 * f.holes[i] + 1] == rings[i + 1][0].1
    {
      assert LaidOutAt(f.vertices, rings, i + 1, 0);
      assert f.holes[i] == RingStart(rings, i + 1) + 0;
    }
  }

  /** Every corner index of `triangles` names a position of `v`. */
  predicate CornersInRange(v: seq<real>, triangles: seq<nat>)
  {
    forall i :: 0 <= i < |triangles| ==> 2 * triangles[i] + 1 < |v|
  }

  /** The layout the loop of `verticesFromPolygon` writes: slots `3i` and
      `3i+1` hold the projection of corner `triangles[i]`, read from
      `v[2 * triangles[i]]` and `v[2 * triangles[i] + 1]`, and slot `3i+2`
      holds `1.0`. */
  ghost predicate TriangleLayout(buffer: seq<real>, v: seq<real>, triangles: seq<nat>, project: Projection)
    requires CornersInRange(v, triangles)
  {
    && |buffer| == 3 * |triangles|
    && forall i :: 0 <= i < |triangles| ==>
         var p := project((v[2 * triangles[i]], v[2 * triangles[i] + 1]));
         buffer[3 * i] == p.0 && buffer[3 * i + 1] == p.1 && buffer[3 * i + 2] == 1.0
  }

  /** The buffer for the corners `triangles` of the flat coordinates `v`. */
  function TriangleBuffer(v: seq<real>, triangles: seq<nat>, project: Projection): (buffer: seq<real>)
    requires CornersInRange(v, triangles)
    ensures TriangleLayout(buffer, v, triangles, project)
  {
    if |triangles| == 0 then []
    else
      var n := |triangles| - 1;
      var point := triangles[n];
      var p := project((v[2 * point], v[2 * point + 1]));
      var init := TriangleBuffer(v, triangles[..n], project);
      var buffer := init + [p.0, p.1, 1.0];
      assert forall i :: 0 <= i < n ==> triangles[..n][i] == triangles[i];
      assert forall i :: 0 <= i < n ==>
        buffer[3 * i] == init[3 * i] && buffer[3 * i + 1] == init[3 * i + 1] && buffer[3 * i + 2] == init[3 * i + 2];
      buffer
  }

  /** The triangles earcut finds for a flattened polygon. */
  function Triangles(f: Flattened, triangulate: Triangulator): seq<nat>
  {
    triangulate(f.vertices, f.holes)
  }

  /** `verticesFromPolygon(rings)`: flatten, triangulate, then one
      projected corner per triangle index. */
  function VerticesFromPolygon(rings: seq<Ring>, triangulate: Triangulator, project: Projection): (r: Option<seq<real>>)
    requires IndexesVertices(triangulate)
    ensures r.None? <==> Flatten(rings).None?
    ensures r.Some? ==>
      var f := Flatten(rings).value;
      CornersInRange(f.vertices, Triangles(f, triangulate))
      && TriangleLayout(r.value, f.vertices, Triangles(f, triangulate), project)
  {
    match Flatten(rings)
    case None => None
    case Some(f) =>
      FlattenIsShaped(rings);
      Some(TriangleBuffer(f.vertices, Triangles(f, triangulate), project))
  }

  /** `earcut.flatten`'s output is the input shape earcut expects. */
  lemma FlattenIsShaped(rings: seq<Ring>)
    requires Flatten(rings).Some?
    ensures FlattenShaped(Flatten(rings).value.vertices, Flatten(rings).value.holes)
  {
    var f := Flatten(rings).value;
    forall j | 0 <= j < |f.holes|
      ensures f.holes[j] <= |f.vertices| / 2
    {
      assert f.holes[j] == RingStart(rings, j + 1);
    }
  }

  /** The buffer of one polygon of a MultiPolygon, built from its outer
      ring `polygon[0]` alone. An empty polygon hands earcut an undefined
      ring, on which it throws. */
  function OuterRingBuffer(polygon: seq<Ring>, triangulate: Triangulator, project: Projection): (r: Option<seq<real>>)
    requires IndexesVertices(triangulate)
    ensures r.None? <==> |polygon| == 0 || |polygon[0]| == 0
    ensures r.Some? ==> StrideLayout(r.value)
  {
    if |polygon| == 0 then None
    else
      var b := VerticesFromPolygon([polygon[0]], triangulate, project);
      if b.Some? then
        var f := Flatten([polygon[0]]).value;
        TriangleLayoutIsStride(b.value, f.vertices, Triangles(f, triangulate), project);
        b
      else b
  }

  /** The per-polygon results of the MultiPolygon branch, in order. */
  function PolygonBuffers(polygons: seq<seq<Ring>>, triangulate: Triangulator, project: Projection): (bs: seq<Option<seq<real>>>)
    requires IndexesVertices(triangulate)
    ensures |bs| == |polygons|
    ensures forall i :: 0 <= i < |polygons| ==> bs[i] == OuterRingBuffer(polygons[i], triangulate, project)
  {
    Each(polygon requires IndexesVertices(triangulate) => OuterRingBuffer(polygon, triangulate, project), polygons)
  }

  /** `f` applied to every element, in order. */
  function Each<X, Y>(f: X --> Y, xs: seq<X>): (ys: seq<Y>)
    requires forall i :: 0 <= i < |xs| ==> f.requires(xs[i])
    ensures |ys| == |xs|
    ensures forall i :: 0 <= i < |xs| ==> ys[i] == f(xs[i])
  {
    seq(|xs|, i requires 0 <= i < |xs| => f(xs[i]))
  }

  /** Buffers concatenated in order; one throw makes the whole a throw. */
  function ConcatAll(bs: seq<Option<seq<real>>>): (r: Option<seq<real>>)
    ensures r.Some? <==> forall i :: 0 <= i < |bs| ==> bs[i].Some?
  {
    if |bs| == 0 then Some([])
    else
      var n := |bs| - 1;
      match (ConcatAll(bs[..n]), bs[n])
      case (Some(init), Some(last)) => Some(init + last)
      case _ => None
  }

  /** The MultiPolygon branch: the outer-ring buffers concatenated in
      order; a throw for any polygon is a throw for the whole geometry. */
  function OuterRingBuffers(polygons: seq<seq<Ring>>, triangulate: Triangulator, project: Projection): Option<seq<real>>
    requires IndexesVertices(triangulate)
  {
    ConcatAll(PolygonBuffers(polygons, triangulate, project))
  }

  /** `geometryToVertices(geometry)` as a value; `None` where it throws. */
  function GeometryBuffer(g: Geometry, triangulate: Triangulator, project: Projection): (r: Option<seq<real>>)
    requires IndexesVertices(triangulate)
    ensures g.Polygon? ==> (r.None? <==> |g.rings| == 0 || |g.rings[0]| == 0)
    ensures g.MultiPolygon? ==>
      (r.None? <==> exists i :: 0 <= i < |g.polygons| && (|g.polygons[i]| == 0 || |g.polygons[i][0]| == 0))
    ensures g.OtherGeometry? ==> r == Some([])
    ensures r.Some? ==> StrideLayout(r.value)
  {
    match g
    case Polygon(rings) =>
      var b := VerticesFromPolygon(rings, triangulate, project);
      if b.Some? then
        var f := Flatten(rings).value;
        TriangleLayoutIsStride(b.value, f.vertices, Triangles(f, triangulate), project);
        b
      else b
    case MultiPolygon(polygons) =>
      var b := OuterRingBuffers(polygons, triangulate, project);
      if b.Some? then
        OuterRingBuffersStride(polygons, triangulate, project);
        b
      else b
    case OtherGeometry => Some([])
  }

  /** Three slots per corner with `1.0` in every third one. */
  ghost predicate StrideLayout(buffer: seq<real>)
  {
    |buffer| % 3 == 0 && forall i :: 0 <= i < |buffer| / 3 ==> buffer[3 * i + 2] == 1.0
  }

  lemma TriangleLayoutIsStride(buffer: seq<real>, v: seq<real>, triangles: seq<nat>, project: Projection)
    requires CornersInRange(v, triangles) && TriangleLayout(buffer, v, triangles, project)
    ensures StrideLayout(buffer)
  {
    forall i | 0 <= i < |buffer| / 3
      ensures buffer[3 * i + 2] == 1.0
    {
      var corner := triangles[i];
    }
  }

  lemma StrideLayoutConcat(a: seq<real>, b: seq<real>)
    requires StrideLayout(a) && StrideLayout(b)
    ensures StrideLayout(a + b)
  {
    var m := |a| / 3;
    forall i | 0 <= i < |a + b| / 3
      ensures (a + b)[3 * i + 2] == 1.0
    {
      if i >= m {
        assert (a + b)[3 * i + 2] == b[3 * (i - m) + 2];
      }
    }
  }

  lemma {:induction false} ConcatAllStride(bs: seq<Option<seq<real>>>)
    requires forall i :: 0 <= i < |bs| ==> bs[i].Some? && StrideLayout(bs[i].value)
    ensures ConcatAll(bs).Some? && StrideLayout(ConcatAll(bs).value)
    decreases |bs|
  {
    if |bs| > 0 {
      var n := |bs| - 1;
      ConcatAllStride(bs[..n]);
      StrideLayoutConcat(ConcatAll(bs[..n]).value, bs[n].value);
    }
  }

  /** Every MultiPolygon buffer keeps the stride-3 layout. */
  lemma OuterRingBuffersStride(polygons: seq<seq<Ring>>, triangulate: Triangulator, project: Projection)
    requires IndexesVertices(triangulate)
    requires OuterRingBuffers(polygons, triangulate, project).Some?
    ensures StrideLayout(OuterRingBuffers(polygons, triangulate, project).value)
  {
    var bs := PolygonBuffers(polygons, triangulate, project);
    ConcatAllStride(bs);
  }

  lemma {:induction false} ConcatAllAppend(xs: seq<Option<seq<real>>>, ys: seq<Option<seq<real>>>)
    requires ConcatAll(xs).Some? && ConcatAll(ys).Some?
    ensures ConcatAll(xs + ys) == Some(ConcatAll(xs).value + ConcatAll(ys).value)
    decreases |ys|
  {
    if |ys| == 0 {
      assert xs + ys == xs;
      assert ConcatAll(xs).value + [] == ConcatAll(xs).value;
    } else {
      var n := |ys| - 1;
      var all := xs + ys;
      assert all[..|all| - 1] == xs + ys[..n];
      assert all[|all| - 1] == ys[n];
      ConcatAllAppend(xs, ys[..n]);
      var a, b, c := ConcatAll(xs).value, ConcatAll(ys[..n]).value, ys[n].value;
      assert (a + b) + c == a + (b + c);
    }
  }

  /** The MultiPolygon buffer of `ps + qs` is the buffer of `ps` followed
      by the buffer of `qs`. */
  lemma OuterRingBuffersAppend(ps: seq<seq<Ring>>, qs: seq<seq<Ring>>, triangulate: Triangulator, project: Projection)
    requires IndexesVertices(triangulate)
    requires OuterRingBuffers(ps, triangulate, project).Some? && OuterRingBuffers(qs, triangulate, project).Some?
    ensures OuterRingBuffers(ps + qs, triangulate, project)
         == Some(OuterRingBuffers(ps, triangulate, project).value + OuterRingBuffers(qs, triangulate, project).value)
  {
    PolygonBuffersAppend(ps, qs, triangulate, project);
    ConcatAllAppend(PolygonBuffers(ps, triangulate, project), PolygonBuffers(qs, triangulate, project));
  }

  lemma PolygonBuffersAppend(ps: seq<seq<Ring>>, qs: seq<seq<Ring>>, triangulate: Triangulator, project: Projection)
    requires IndexesVertices(triangulate)
    ensures PolygonBuffers(ps + qs, triangulate, project)
         == PolygonBuffers(ps, triangulate, project) + PolygonBuffers(qs, triangulate, project)
  {
    EachAppend(polygon requires IndexesVertices(triangulate) => OuterRingBuffer(polygon, triangulate, project), ps, qs);
  }

  lemma EachAppend<X, Y>(f: X --> Y, xs: seq<X>, ys: seq<X>)
    requires forall i :: 0 <= i < |xs| ==> f.requires(xs[i])
    requires forall i :: 0 <= i < |ys| ==> f.requires(ys[i])
    ensures forall i :: 0 <= i < |xs + ys| ==> f.requires((xs + ys)[i])
    ensures Each(f, xs + ys) == Each(f, xs) + Each(f, ys)
  {
    assert forall i :: 0 <= i < |xs + ys| ==> (xs + ys)[i] == if i < |xs| then xs[i] else ys[i - |xs|];
    var zs := Each(f, xs + ys);
    forall i | 0 <= i < |xs|
      ensures zs[i] == Each(f, xs)[i]
    {
      assert (xs + ys)[i] == xs[i];
    }
    forall i | 0 <= i < |ys|
      ensures zs[|xs| + i] == Each(f, ys)[i]
    {
      assert (xs + ys)[|xs| + i] == ys[i];
    }
    AppendByIndex(zs, Each(f, xs), Each(f, ys));
  }

  /** A sequence that starts with `xs` and continues with `ys` is `xs + ys`. */
  lemma AppendByIndex<T>(zs: seq<T>, xs: seq<T>, ys: seq<T>)
    requires |zs| == |xs| + |ys|
    requires forall i :: 0 <= i < |xs| ==> zs[i] == xs[i]
    requires forall i :: 0 <= i < |ys| ==> zs[|xs| + i] == ys[i]
    ensures zs == xs + ys
  {
    forall i | 0 <= i < |zs|
      ensures zs[i] == (xs + ys)[i]
    {
      if i >= |xs| {
        assert zs[|xs| + (i - |xs|)] == ys[i - |xs|];
      }
    }
  }

  /** Holes never reach the MultiPolygon buffer: polygons with the same
      outer rings give the same buffer. */
  lemma OuterRingBuffersIgnoreHoles(ps: seq<seq<Ring>>, qs: seq<seq<Ring>>, triangulate: Triangulator, project: Projection)
    requires IndexesVertices(triangulate)
    requires |ps| == |qs|
    requires forall i :: 0 <= i < |ps| ==> |ps[i]| > 0 && |qs[i]| > 0 && ps[i][0] == qs[i][0]
    ensures OuterRingBuffers(ps, triangulate, project) == OuterRingBuffers(qs, triangulate, project)
  {
    assert PolygonBuffers(ps, triangulate, project) == PolygonBuffers(qs, triangulate, project);
  }

  /** `vertices.forEach(v => positions[positions.length] = v)`: appends
      one value at a time. */
  method AppendEach(positions: seq<real>, vertices: seq<real>) returns (r: seq<real>)
    ensures r == positions + vertices
  {
    r := positions;
    var j := 0;
    while j < |vertices|
      invariant 0 <= j <= |vertices|
      invariant r == positions + vertices[..j]
    {
      r := r + [vertices[j]];
      j := j + 1;
    }
    assert vertices[..j] == vertices;
  }

  /** The MultiPolygon branch of `geometryToVertices` as the source writes
      it: each polygon's outer-ring buffer appended to `positions` in turn;
      a throw for one polygon ends the loop with a throw. */
  method AccumulateOuterRings(polygons: seq<seq<Ring>>, triangulate: Triangulator, project: Projection) returns (r: Option<seq<real>>)
    requires IndexesVertices(triangulate)
    ensures r == OuterRingBuffers(polygons, triangulate, project)
  {
    var bs := PolygonBuffers(polygons, triangulate, project);
    var positions: seq<real> := [];
    var i := 0;
    while i < |polygons|
      invariant 0 <= i <= |polygons|
      invariant ConcatAll(bs[..i]) == Some(positions)
    {
      assert bs[..i + 1][..i] == bs[..i];
      var vertices := OuterRingBuffer(polygons[i], triangulate, project);
      if vertices.None? {
        assert ConcatAll(bs).None?;
        return None;
      }
      positions := AppendEach(positions, vertices.value);
      i := i + 1;
    }
    assert bs[..i] == bs;
    r := Some(positions);
  }

  /** `geometryToVertices` as the source writes it. */
  method GeometryToVertices(g: Geometry, triangulate: Triangulator, project: Projection) returns (r: Option<seq<real>>)
    requires IndexesVertices(triangulate)
    ensures r == GeometryBuffer(g, triangulate, project)
    ensures g.OtherGeometry? ==> r == Some([])
    ensures g.Polygon? ==> r == VerticesFromPolygon(g.rings, triangulate, project)
    ensures r.Some? ==> StrideLayout(r.value)
  {
    match g {
      case Polygon(rings) =>
        r := VerticesFromPolygon(rings, triangulate, project);
      case MultiPolygon(polygons) =>
        r := AccumulateOuterRings(polygons, triangulate, project);
      case OtherGeometry =>
        r := Some([]);
    }
  }
}

=== FILE: map_camera.dfy ===
/** The camera of the map (src/map.ts, src/webgl/renderer.ts): `setZoom` and
    `flyTo` replace the renderer's camera and then resynchronise its view
    matrix with `updateMatrix`. `Math.pow(2, z)` and
    `MercatorCoordinate.fromLngLat` are parameters. */
module MapCamera {
  import Constants
  import Mercator

  datatype Camera = Camera(x: real, y: real, z: real)

  /** A 3x3 matrix, row by row (gl-matrix stores the same matrix column by
      column; the storage order does not matter here). */
  datatype Mat3 = Mat3(m00: real, m01: real, m02: real,
                       m10: real, m11: real, m12: real,
                       m20: real, m21: real, m22: real)

  /** `mat3.create()`. */
  const Identity: Mat3 := Mat3(1.0, 0.0, 0.0, 0.0, 1.0, 0.0, 0.0, 0.0, 1.0)

  function Mul(a: Mat3, b: Mat3): Mat3
  {
    Mat3(a.m00 * b.m00 + a.m01 * b.m10 + a.m02 * b.m20,
         a.m00 * b.m01 + a.m01 * b.m11 + a.m02 * b.m21,
         a.m00 * b.m02 + a.m01 * b.m12 + a.m02 * b.m22,
         a.m10 * b.m00 + a.m11 * b.m10 + a.m12 * b.m20,
         a.m10 * b.m01 + a.m11 * b.m11 + a.m12 * b.m21,
         a.m10 * b.m02 + a.m11 * b.m12 + a.m12 * b.m22,
         a.m20 * b.m00 + a.m21 * b.m10 + a.m22 * b.m20,
         a.m20 * b.m01 + a.m21 * b.m11 + a.m22 * b.m21,
         a.m20 * b.m02 + a.m21 * b.m12 + a.m22 * b.m22)
  }

  /** A matrix applied to the homogeneous point `(px, py, 1)`. */
  function Apply(m: Mat3, px: real, py: real): (real, real, real)
  {
    (m.m00 * px + m.m01 * py + m.m02,
     m.m10 * px + m.m11 * py + m.m12,
     m.m20 * px + m.m21 * py + m.m22)
  }

  function Translation(tx: real, ty: real): Mat3
  {
    Mat3(1.0, 0.0, tx, 0.0, 1.0, ty, 0.0, 0.0, 1.0)
  }

  function Scaling(s: real): Mat3
  {
    Mat3(s, 0.0, 0.0, 0.0, s, 0.0, 0.0, 0.0, 1.0)
  }

  /** `Math.pow(2, z)` as a parameter: positive for every zoom. */
  type Exp2 = real -> real

  ghost predicate PositivePowers(exp2: Exp2)
  {
    forall z :: exp2(z) > 0.0
  }

  /** `1 / Math.pow(2, camera.z)`. */
  function ZoomScale(c: Camera, exp2: Exp2): (s: real)
    requires PositivePowers(exp2)
    ensures s > 0.0 && s * exp2(c.z) == 1.0
  {
    1.0 / exp2(c.z)
  }

  /** `cameraMatrix` of `updateMatrix`: translated to the camera, then scaled
      by the zoom scale. It sends a point of the view to the world: scaled
      by the zoom scale, then offset by the camera position. */
  function CameraMatrix(c: Camera, exp2: Exp2): (m: Mat3)
    requires PositivePowers(exp2)
    ensures forall px: real, py: real ::
      && Apply(m, px, py).0 == c.x + ZoomScale(c, exp2) * px
      && Apply(m, px, py).1 == c.y + ZoomScale(c, exp2) * py
      && Apply(m, px, py).2 == 1.0
  {
    var m := Mul(Translation(c.x, c.y), Scaling(ZoomScale(c, exp2)));
    ScaledOffset(m, ZoomScale(c, exp2), c.x, c.y);
    m
  }

  /** The matrix that scales by `s` and then offsets by `(tx, ty)`, applied
      to any point. */
  lemma ScaledOffset(m: Mat3, s: real, tx: real, ty: real)
    requires m == Mat3(s, 0.0, tx, 0.0, s, ty, 0.0, 0.0, 1.0)
    ensures forall px: real, py: real ::
      Apply(m, px, py).0 == tx + s * px && Apply(m, px, py).1 == ty + s * py && Apply(m, px, py).2 == 1.0
  {
  }

  /** `mat3.invert` of the camera matrix. Its determinant is the square of
      the zoom scale, never zero, so the inverse always exists. */
  function InverseCamera(c: Camera, exp2: Exp2): (m: Mat3)
    requires PositivePowers(exp2)
    ensures Mul(m, CameraMatrix(c, exp2)) == Identity
    ensures Mul(CameraMatrix(c, exp2), m) == Identity
  {
    var k := exp2(c.z);
    var s := ZoomScale(c, exp2);
    assert s * k == 1.0;
    Mat3(k, 0.0, -k * c.x, 0.0, k, -k * c.y, 0.0, 0.0, 1.0)
  }

  /** `updateMatrix`: the identity times the inverse of the camera matrix. */
  function UpdateMatrix(c: Camera, exp2: Exp2): (m: Mat3)
    requires PositivePowers(exp2)
    ensures Mul(m, CameraMatrix(c, exp2)) == Identity
  {
    IdentityLeft(InverseCamera(c, exp2));
    Mul(Identity, InverseCamera(c, exp2))
  }

  lemma IdentityLeft(m: Mat3)
    ensures Mul(Identity, m) == m
  {
  }

  /** The view matrix sends the camera position to the origin of clip space,
      and a point one zoom scale to the right of it to clip x = 1. */
  lemma ViewCentresCamera(c: Camera, exp2: Exp2)
    requires PositivePowers(exp2)
    ensures Apply(UpdateMatrix(c, exp2), c.x, c.y) == (0.0, 0.0, 1.0)
    ensures Apply(UpdateMatrix(c, exp2), c.x + ZoomScale(c, exp2), c.y) == (1.0, 0.0, 1.0)
  {
    var s := ZoomScale(c, exp2);
    var k := exp2(c.z);
    var m := UpdateMatrix(c, exp2);
    assert m == Mat3(k, 0.0, -k * c.x, 0.0, k, -k * c.y, 0.0, 0.0, 1.0);
    var p, q := Apply(m, c.x, c.y), Apply(m, c.x + s, c.y);
    assert p.0 == 0.0 && p.1 == 0.0 && p.2 == 1.0;
    assert q.0 == k * (c.x + s) - k * c.x == k * s == 1.0;
    assert q.1 == 0.0 && q.2 == 1.0;
  }

  /** With `Math.pow(2, 0) == 1`, the initial camera has the identity view. */
  lemma InitialViewIsIdentity(exp2: Exp2)
    requires PositivePowers(exp2) && exp2(0.0) == 1.0
    ensures InitialRenderer(exp2).matrix == Identity
  {
  }

  /** The part of the renderer the camera operations touch. */
  datatype Renderer = Renderer(camera: Camera, matrix: Mat3)

  ghost predicate Synced(r: Renderer, exp2: Exp2)
    requires PositivePowers(exp2)
  {
    r.matrix == UpdateMatrix(r.camera, exp2)
  }

  /** A new renderer: camera `{x: 0, y: 0, z: 0}`, and `init` ends with
      `updateMatrix`. */
  function InitialRenderer(exp2: Exp2): (r: Renderer)
    requires PositivePowers(exp2)
    ensures r.camera == Camera(0.0, 0.0, 0.0)
    ensures Synced(r, exp2)
  {
    var camera := Camera(0.0, 0.0, 0.0);
    Renderer(camera, UpdateMatrix(camera, exp2))
  }

  /** `Map.setZoom`: keeps the camera's x and y, stores `zoom` unclamped,
      resynchronises the matrix. */
  function SetZoom(r: Renderer, zoom: real, exp2: Exp2): (r': Renderer)
    requires PositivePowers(exp2)
    ensures r'.camera.x == r.camera.x && r'.camera.y == r.camera.y
    ensures r'.camera.z == zoom
    ensures Synced(r', exp2)
  {
    var camera := Camera(r.camera.x, r.camera.y, zoom);
    Renderer(camera, UpdateMatrix(camera, exp2))
  }

  /** `Map.flyTo`: moves the camera's x and y to the projected centre, keeps
      the zoom, resynchronises the matrix. */
  function FlyTo(r: Renderer, center: Mercator.Position, project: Mercator.Projection, exp2: Exp2): (r': Renderer)
    requires PositivePowers(exp2)
    ensures (r'.camera.x, r'.camera.y) == project(center)
    ensures r'.camera.z == r.camera.z
    ensures Synced(r', exp2)
  {
    var (x, y) := project(center);
    var camera := Camera(x, y, r.camera.z);
    Renderer(camera, UpdateMatrix(camera, exp2))
  }

  /** `setZoom` does not apply `MAX_ZOOM`: a zoom beyond it is kept. */
  lemma SetZoomDoesNotClamp(r: Renderer, zoom: real, exp2: Exp2)
    requires PositivePowers(exp2)
    ensures zoom > Constants.MaxZoom ==> SetZoom(r, zoom, exp2).camera.z > Constants.MaxZoom
    ensures zoom < Constants.MinZoom ==> SetZoom(r, zoom, exp2).camera.z < Constants.MinZoom
  {
  }

  /** Zooming and flying touch different parts of the camera. */
  lemma ZoomFlyCommute(r: Renderer, zoom: real, center: Mercator.Position, project: Mercator.Projection, exp2: Exp2)
    requires PositivePowers(exp2)
    ensures SetZoom(FlyTo(r, center, project, exp2), zoom, exp2)
         == FlyTo(SetZoom(r, zoom, exp2), center, project, exp2)
  {
  }

  /** Only the last of two zooms counts; likewise for two flights. */
  lemma LastCallWins(r: Renderer, z1: real, z2: real, c1: Mercator.Position, c2: Mercator.Position,
                     project: Mercator.Projection, exp2: Exp2)
    requires PositivePowers(exp2)
    ensures SetZoom(SetZoom(r, z1, exp2), z2, exp2) == SetZoom(r, z2, exp2)
    ensures FlyTo(FlyTo(r, c1, project, exp2), c2, project, exp2) == FlyTo(r, c2, project, exp2)
  {
  }

  /** The camera calls a program can make. */
  datatype CameraCall = Zoom(zoom: real) | Fly(center: Mercator.Position)

  function Step(r: Renderer, call: CameraCall, project: Mercator.Projection, exp2: Exp2): Renderer
    requires PositivePowers(exp2)
  {
    match call
    case Zoom(zoom) => SetZoom(r, zoom, exp2)
    case Fly(center) => FlyTo(r, center, project, exp2)
  }

  /** The calls applied in order. */
  function Run(r: Renderer, calls: seq<CameraCall>, project: Mercator.Projection, exp2: Exp2): Renderer
    requires PositivePowers(exp2)
    decreases |calls|
  {
    if |calls| == 0 then r
    else Run(Step(r, calls[0], project, exp2), calls[1..], project, exp2)
  }

  /** The zoom after the calls: the last `Zoom` among them, else `z`. */
  function LastZoom(calls: seq<CameraCall>, z: real): real
  {
    if |calls| == 0 then z
    else if calls[|calls| - 1].Zoom? then calls[|calls| - 1].zoom
    else LastZoom(calls[..|calls| - 1], z)
  }

  /** The position after the calls: the projected centre of the last `Fly`
      among them, else `xy`. */
  function LastPosition(calls: seq<CameraCall>, xy: (real, real), project: Mercator.Projection): (real, real)
  {
    if |calls| == 0 then xy
    else if calls[|calls| - 1].Fly? then project(calls[|calls| - 1].center)
    else LastPosition(calls[..|calls| - 1], xy, project)
  }

  lemma {:induction false} RunSnoc(r: Renderer, calls: seq<CameraCall>, call: CameraCall,
                                   project: Mercator.Projection, exp2: Exp2)
    requires PositivePowers(exp2)
    ensures Run(r, calls + [call], project, exp2) == Step(Run(r, calls, project, exp2), call, project, exp2)
    decreases |calls|
  {
    if |calls| == 0 {
      assert calls + [call] == [call];
    } else {
      assert (calls + [call])[1..] == calls[1..] + [call];
      RunSnoc(Step(r, calls[0], project, exp2), calls[1..], call, project, exp2);
    }
  }

  /** Whatever calls a program makes, starting from a synchronised renderer
      the matrix always matches the camera, and the camera holds the last
      zoom and the last projected centre requested. */
  lemma {:induction false} RunCamera(r: Renderer, calls: seq<CameraCall>, project: Mercator.Projection, exp2: Exp2)
    requires PositivePowers(exp2) && Synced(r, exp2)
    ensures Synced(Run(r, calls, project, exp2), exp2)
    ensures Run(r, calls, project, exp2).camera.z == LastZoom(calls, r.camera.z)
    ensures (Run(r, calls, project, exp2).camera.x, Run(r, calls, project, exp2).camera.y)
         == LastPosition(calls, (r.camera.x, r.camera.y), project)
    decreases |calls|
  {
    if |calls| > 0 {
      var init := calls[..|calls| - 1];
      var last := calls[|calls| - 1];
      assert calls == init + [last];
      RunSnoc(r, init, last, project, exp2);
      RunCamera(r, init, project, exp2);
    }
  }

  /** A fresh map's camera after any sequence of calls. */
  lemma RunFromStart(calls: seq<CameraCall>, project: Mercator.Projection, exp2: Exp2)
    requires PositivePowers(exp2)
    ensures Synced(Run(InitialRenderer(exp2), calls, project, exp2), exp2)
    ensures Run(InitialRenderer(exp2), calls, project, exp2).camera.z == LastZoom(calls, 0.0)
  {
    RunCamera(InitialRenderer(exp2), calls, project, exp2);
  }
}

=== FILE: mercator.dfy ===
/** The two shapes the map shares with `MercatorCoordinate`
    (src/utils/mercator-coordinate.ts, which is not part of this model): a
    longitude/latitude position and the projection `fromLngLat`. */
module Mercator {

  /** A GeoJSON position `[lng, lat]`; vector-tile features always convert
      to two-dimensional positions. */
  type Position = (real, real)

  /** `MercatorCoordinate.fromLngLat`. */
  type Projection = Position -> (real, real)
}

=== FILE: strings.dfy ===
/** Substring search and JavaScript's `String.prototype.replace` with a
    string pattern, which replaces the FIRST occurrence only. */
module Strings {
  import opened Wrappers

  /** `p` occurs in `s` starting at index `k`. */
  predicate OccursAt(s: string, p: string, k: int)
  {
    0 <= k && k + |p| <= |s| && s[k..k + |p|] == p
  }

  /** `k` is the leftmost occurrence of `p` in `s`. */
  predicate FirstOccurrence(s: string, p: string, k: int)
  {
    OccursAt(s, p, k) && forall j :: 0 <= j < k ==> !OccursAt(s, p, j)
  }

  /** `parts.join(sep)`. */
  function Join(parts: seq<string>, sep: string): string
  {
    if |parts| == 0 then ""
    else if |parts| == 1 then parts[0]
    else parts[0] + sep + Join(parts[1..], sep)
  }

  lemma JoinThree(a: string, b: string, c: string, sep: string)
    ensures Join([a, b, c], sep) == a + sep + (b + sep + c)
  {
    assert [a, b, c][1..] == [b, c];
    assert [b, c][1..] == [c];
    assert Join([c], sep) == c;
    assert Join([b, c], sep) == b + sep + c;
  }

  /** A slice of a prefix is the same slice of the whole string. */
  lemma SliceOfPrefix(s: string, i: nat, j: nat, n: nat)
    requires j + n <= i <= |s|
    ensures s[..i][j..j + n] == s[j..j + n]
  {
  }

  /** A slice of a suffix is the shifted slice of the whole string. */
  lemma SliceOfSuffix(s: string, a: nat, m: nat, n: nat)
    requires a + m + n <= |s|
    ensures s[a..][m..m + n] == s[a + m..a + m + n]
  {
  }

  /** A slice inside the left part of a concatenation. */
  lemma SliceOfConcatLeft(a: string, b: string, j: nat, n: nat)
    requires j + n <= |a|
    ensures (a + b)[j..j + n] == a[j..j + n]
  {
  }

  /** A slice inside the right part of a concatenation. */
  lemma SliceOfConcatRight(a: string, b: string, m: nat, n: nat)
    requires m + n <= |b|
    ensures (a + b)[|a| + m..|a| + m + n] == b[m..m + n]
  {
  }

  ghost predicate Contains(s: string, p: string)
  {
    exists k :: OccursAt(s, p, k)
  }

  /** `p` occurs in `s` at most once. */
  ghost predicate AtMostOnce(s: string, p: string)
  {
    forall j, k :: OccursAt(s, p, j) && OccursAt(s, p, k) ==> j == k
  }

  /** The leftmost occurrence of `p` in `s` at or after `from`. */
  function FindFrom(s: string, p: string, from: nat): (r: Option<nat>)
    ensures r.Some? ==> from <= r.value && OccursAt(s, p, r.value)
    ensures r.Some? ==> forall j :: from <= j < r.value ==> !OccursAt(s, p, j)
    ensures r.None? ==> forall j :: from <= j ==> !OccursAt(s, p, j)
    decreases |s| - from
  {
    if from + |p| > |s| then None
    else if s[from..from + |p|] == p then Some(from)
    else FindFrom(s, p, from + 1)
  }

  /** `s.indexOf(p)`, with -1 written as `None`. The index counts
      characters, while JavaScript counts UTF-16 code units, so the two
      differ after any character outside the Basic Multilingual Plane;
      the string `ReplaceFirst` builds from it is the same. */
  function IndexOf(s: string, p: string): (r: Option<nat>)
    ensures r.Some? ==> FirstOccurrence(s, p, r.value)
    ensures r.None? ==> !Contains(s, p)
  {
    FindFrom(s, p, 0)
  }

  /** A replacement string free of `$`, so JavaScript's `$&`-style
      replacement patterns never apply to it. */
  predicate Literal(rep: string)
  {
    forall i :: 0 <= i < |rep| ==> rep[i] != '$'
  }

  /** `s.replace(p, rep)` for a string pattern `p`: the leftmost occurrence
      of `p` is replaced, every later one is kept, and a string without `p`
      comes back unchanged. */
  function ReplaceFirst(s: string, p: string, rep: string): (r: string)
    requires Literal(rep)
    ensures !Contains(s, p) ==> r == s
    ensures forall k :: FirstOccurrence(s, p, k) ==> r == s[..k] + rep + s[k + |p|..]
  {
    match IndexOf(s, p)
    case None => s
    case Some(k) =>
      assert forall j :: FirstOccurrence(s, p, j) ==> j == k;
      s[..k] + rep + s[k + |p|..]
  }
}

=== FILE: tile_url.dfy ===
/** The tile URL template of `getTileURL` and of the fetch in `fetchTile`
    (src/utils/fetch-data.ts): the placeholders `{x}`, `{y}` and `{z}` are
    each replaced, first occurrence only, by the printed tile coordinate. */
module TileUrl {
  import opened Wrappers
  import opened Strings
  import opened Decimal

  const PlaceholderX: string := "{x}"
  const PlaceholderY: string := "{y}"
  const PlaceholderZ: string := "{z}"

  predicate IsPlaceholder(p: string)
  {
    p == PlaceholderX || p == PlaceholderY || p == PlaceholderZ
  }

  /** `getTileURL(url, x, y, z)`: substitutes in the order x, y, z. A
      template without placeholders is requested as it is. */
  function GetTileUrl(url: string, x: int, y: int, z: int): (r: string)
    ensures !Contains(url, PlaceholderX) && !Contains(url, PlaceholderY) && !Contains(url, PlaceholderZ) ==> r == url
  {
    LiteralDecimal(x);
    LiteralDecimal(y);
    LiteralDecimal(z);
    var withX := ReplaceFirst(url, PlaceholderX, DecimalString(x));
    var withY := ReplaceFirst(withX, PlaceholderY, DecimalString(y));
    ReplaceFirst(withY, PlaceholderZ, DecimalString(z))
  }

  /** The URL `fetchTile` requests: the same template filled in the order
      z, x, y. Filling different placeholders with numbers commutes, so it
      is always the URL `getTileURL` builds. */
  function FetchTileUrl(url: string, x: int, y: int, z: int): (r: string)
    ensures r == GetTileUrl(url, x, y, z)
  {
    var dx, dy, dz := DecimalString(x), DecimalString(y), DecimalString(z);
    LiteralDecimal(x);
    LiteralDecimal(y);
    LiteralDecimal(z);
    ReplaceCommutes(url, PlaceholderZ, dz, PlaceholderX, dx);
    ReplaceCommutes(ReplaceFirst(url, PlaceholderX, dx), PlaceholderZ, dz, PlaceholderY, dy);
    var withZ := ReplaceFirst(url, PlaceholderZ, dz);
    var withX := ReplaceFirst(withZ, PlaceholderX, dx);
    ReplaceFirst(withX, PlaceholderY, dy)
  }

  lemma LiteralDecimal(n: int)
    ensures Literal(DecimalString(n))
  {
    var d := DecimalString(n);
    assert forall i :: 0 <= i < |d| ==> IsDigit(d[i]) || d[i] == '-';
  }

  // ---------------------------------------------------------------------
  // Occurrences of placeholders around an inserted number

  /** A placeholder found in `pre + d + post`, with `d` a printed number,
      lies wholly inside `pre` or wholly inside `post`: a number holds no
      brace and no placeholder letter. */
  lemma SpliceOccurrence(pre: string, d: string, post: string, q: string, k: int)
    requires IsPlaceholder(q) && DecimalText(d)
    requires OccursAt(pre + d + post, q, k)
    ensures || (k + |q| <= |pre| && OccursAt(pre, q, k))
            || (k >= |pre| + |d| && OccursAt(post, q, k - |pre| - |d|))
  {
    var s := pre + d + post;
    assert s[k..k + 3] == q;
    assert s[k] == '{' && s[k + 2] == '}' && !IsDigit(s[k + 1]) && s[k + 1] != '-';
    if k + 3 <= |pre| {
      assert pre[k..k + 3] == s[k..k + 3];
    } else if k >= |pre| + |d| {
      var m := k - |pre| - |d|;
      assert post[m..m + 3] == s[k..k + 3];
    } else {
      assert false;
    }
  }

  /** Occurrences inside `pre` or `post` survive the insertion of `d`. */
  lemma SpliceKeeps(pre: string, d: string, post: string, q: string)
    ensures forall k :: OccursAt(pre, q, k) ==> OccursAt(pre + d + post, q, k)
    ensures forall k :: OccursAt(post, q, k) ==> OccursAt(pre + d + post, q, k + |pre| + |d|)
  {
    var s := pre + d + post;
    forall k | OccursAt(pre, q, k)
      ensures OccursAt(s, q, k)
    {
      assert s[k..k + |q|] == pre[k..k + |q|];
    }
    forall k | OccursAt(post, q, k)
      ensures OccursAt(s, q, k + |pre| + |d|)
    {
      assert s[k + |pre| + |d|..k + |pre| + |d| + |q|] == post[k..k + |q|];
    }
  }

  /** Two different placeholders never overlap. */
  lemma PlaceholdersDisjoint(s: string, p: string, q: string, i: int, j: int)
    requires IsPlaceholder(p) && IsPlaceholder(q) && p != q
    requires OccursAt(s, p, i) && OccursAt(s, q, j)
    ensures i + 3 <= j || j + 3 <= i
  {
    assert s[i..i + 3] == p && s[j..j + 3] == q;
    assert forall k :: i <= k < i + 3 ==> s[k] == p[k - i];
    assert forall k :: j <= k < j + 3 ==> s[k] == q[k - j];
    assert s[i] == '{' && s[j] == '{';
  }

  /** `s` with the placeholder at `i` replaced by the number `d`. */
  function Splice(s: string, i: nat, d: string): string
    requires i + 3 <= |s|
  {
    s[..i] + d + s[i + 3..]
  }

  /** Where an index of the original string lands once the placeholder at
      `i` has been replaced by `d` (for indices outside that placeholder),
      and back. */
  function Shift(i: int, d: string, j: int): int
  {
    if j < i then j else j + |d| - 3
  }

  function Unshift(i: int, d: string, k: int): int
  {
    if k < i then k else k - |d| + 3
  }

  /** An occurrence of another placeholder moves by `Shift`. */
  lemma ShiftForward(s: string, p: string, i: nat, d: string, q: string, j: int)
    requires IsPlaceholder(p) && IsPlaceholder(q) && p != q && DecimalText(d)
    requires OccursAt(s, p, i) && OccursAt(s, q, j)
    ensures OccursAt(Splice(s, i, d), q, Shift(i, d, j))
  {
    PlaceholdersDisjoint(s, p, q, i, j);
    if j + 3 <= i {
      ShiftForwardBefore(s, i, d, q, j);
    } else {
      ShiftForwardAfter(s, i, d, q, j);
    }
  }

  lemma ShiftForwardBefore(s: string, i: nat, d: string, q: string, j: int)
    requires IsPlaceholder(q) && i + 3 <= |s|
    requires OccursAt(s, q, j) && j + 3 <= i
    ensures OccursAt(Splice(s, i, d), q, Shift(i, d, j))
  {
    assert |q| == 3;
    var pre, post := s[..i], s[i + 3..];
    assert Splice(s, i, d) == (pre + d) + post;
    SliceOfPrefix(s, i, j, 3);
    SliceOfConcatLeft(pre, d, j, 3);
    SliceOfConcatLeft(pre + d, post, j, 3);
  }

  lemma ShiftForwardAfter(s: string, i: nat, d: string, q: string, j: int)
    requires IsPlaceholder(q) && i + 3 <= |s|
    requires OccursAt(s, q, j) && j >= i + 3
    ensures OccursAt(Splice(s, i, d), q, Shift(i, d, j))
  {
    assert |q| == 3;
    var pre, post := s[..i], s[i + 3..];
    assert Splice(s, i, d) == (pre + d) + post;
    var m := j - i - 3;
    SliceOfSuffix(s, i + 3, m, 3);
    SliceOfConcatRight(pre + d, post, m, 3);
    assert |pre + d| + m == Shift(i, d, j);
  }

  /** Every occurrence of a placeholder after the replacement comes, by
      `Unshift`, from one before that does not overlap index `i`. */
  lemma ShiftBack(s: string, p: string, i: nat, d: string, q: string, k: int)
    requires IsPlaceholder(p) && IsPlaceholder(q) && DecimalText(d)
    requires OccursAt(s, p, i) && OccursAt(Splice(s, i, d), q, k)
    ensures OccursAt(s, q, Unshift(i, d, k))
    ensures Unshift(i, d, k) + 3 <= i || Unshift(i, d, k) >= i + 3
    ensures Shift(i, d, Unshift(i, d, k)) == k
  {
    var pre, post := s[..i], s[i + 3..];
    assert Splice(s, i, d) == pre + d + post;
    SpliceOccurrence(pre, d, post, q, k);
    if k + |q| <= |pre| {
      ShiftBackBefore(s, i, d, q, k);
    } else {
      ShiftBackAfter(s, i, d, q, k - |pre| - |d|);
    }
  }

  /** An occurrence left of the replaced placeholder stays where it is. */
  lemma ShiftBackBefore(s: string, i: nat, d: string, q: string, k: int)
    requires IsPlaceholder(q) && i + 3 <= |s|
    requires k + |q| <= i && OccursAt(s[..i], q, k)
    ensures OccursAt(s, q, Unshift(i, d, k)) && Unshift(i, d, k) + 3 <= i
    ensures Shift(i, d, Unshift(i, d, k)) == k
  {
    assert |q| == 3;
    SliceOfPrefix(s, i, k, 3);
  }

  /** An occurrence right of the inserted number moves back by the
      difference in length. */
  lemma ShiftBackAfter(s: string, i: nat, d: string, q: string, m: int)
    requires IsPlaceholder(q) && i + 3 <= |s|
    requires OccursAt(s[i + 3..], q, m)
    ensures OccursAt(s, q, Unshift(i, d, i + |d| + m)) && Unshift(i, d, i + |d| + m) >= i + 3
    ensures Shift(i, d, Unshift(i, d, i + |d| + m)) == i + |d| + m
  {
    assert |q| == 3;
    SliceOfSuffix(s, i + 3, m, 3);
    assert Unshift(i, d, i + |d| + m) == i + 3 + m;
  }

  // ---------------------------------------------------------------------
  // `replace` with a number, one placeholder at a time

  /** After `p` is replaced by a number, the first occurrence of another
      placeholder `q` is the shifted first occurrence of `q` before. */
  lemma ReplacedFirstOccurrence(s: string, p: string, i: nat, d: string, q: string, j: int)
    requires IsPlaceholder(p) && IsPlaceholder(q) && p != q && DecimalText(d)
    requires OccursAt(s, p, i) && FirstOccurrence(s, q, j)
    ensures FirstOccurrence(Splice(s, i, d), q, Shift(i, d, j))
  {
    ShiftForward(s, p, i, d, q, j);
    PlaceholdersDisjoint(s, p, q, i, j);
    forall k | 0 <= k < Shift(i, d, j)
      ensures !OccursAt(Splice(s, i, d), q, k)
    {
      if OccursAt(Splice(s, i, d), q, k) {
        ShiftBack(s, p, i, d, q, k);
      }
    }
  }

  /** A found placeholder is replaced by splicing the number in. */
  lemma ReplaceIsSplice(s: string, p: string, d: string, i: nat)
    requires IsPlaceholder(p) && Literal(d) && IndexOf(s, p) == Some(i)
    ensures OccursAt(s, p, i) && ReplaceFirst(s, p, d) == Splice(s, i, d)
  {
  }

  /** Replacing at a known first occurrence is splicing there. */
  lemma ReplaceAtFirst(s: string, p: string, d: string, i: int)
    requires IsPlaceholder(p) && Literal(d) && FirstOccurrence(s, p, i)
    ensures i + 3 <= |s| && ReplaceFirst(s, p, d) == Splice(s, i, d)
  {
  }

  /** Every occurrence of `q` after `p` is replaced comes from one before. */
  lemma OccurrencesComeFromBefore(s: string, p: string, d: string, i: nat, q: string)
    requires IsPlaceholder(p) && IsPlaceholder(q) && DecimalText(d) && Literal(d)
    requires IndexOf(s, p) == Some(i)
    ensures forall k :: OccursAt(ReplaceFirst(s, p, d), q, k) ==>
      OccursAt(s, q, Unshift(i, d, k)) && Shift(i, d, Unshift(i, d, k)) == k
  {
    ReplaceIsSplice(s, p, d, i);
    forall k | OccursAt(Splice(s, i, d), q, k)
      ensures OccursAt(s, q, Unshift(i, d, k)) && Shift(i, d, Unshift(i, d, k)) == k
    {
      ShiftBack(s, p, i, d, q, k);
    }
  }

  /** Replacing one placeholder never creates an occurrence of any
      placeholder that was absent. */
  lemma ReplaceKeepsAbsence(s: string, p: string, d: string, q: string)
    requires IsPlaceholder(p) && IsPlaceholder(q) && DecimalText(d) && Literal(d)
    requires !Contains(s, q)
    ensures !Contains(ReplaceFirst(s, p, d), q)
  {
    match IndexOf(s, p)
    case None =>
    case Some(i) =>
      OccurrencesComeFromBefore(s, p, d, i, q);
  }

  /** A placeholder that occurred at most once still does after another
      placeholder is replaced. */
  lemma ReplaceKeepsAtMostOnce(s: string, p: string, d: string, q: string)
    requires IsPlaceholder(p) && IsPlaceholder(q) && DecimalText(d) && Literal(d)
    requires AtMostOnce(s, q)
    ensures AtMostOnce(ReplaceFirst(s, p, d), q)
  {
    match IndexOf(s, p)
    case None =>
    case Some(i) =>
      OccurrencesComeFromBefore(s, p, d, i, q);
  }

  /** A placeholder that occurred at most once is gone once replaced. */
  lemma ReplaceRemovesSingle(s: string, p: string, d: string)
    requires IsPlaceholder(p) && DecimalText(d) && Literal(d)
    requires AtMostOnce(s, p)
    ensures !Contains(ReplaceFirst(s, p, d), p)
  {
    match IndexOf(s, p)
    case None =>
    case Some(i) =>
      ReplaceIsSplice(s, p, d, i);
      forall k | OccursAt(Splice(s, i, d), p, k)
        ensures false
      {
        ShiftBack(s, p, i, d, p, k);
      }
  }

  /** Two replacements at disjoint places, done in either order. */
  lemma SpliceTwice(s: string, i: nat, d: string, j: nat, e: string)
    requires i + 3 <= j && j + 3 <= |s|
    ensures j + |d| - 3 >= 0
    ensures Splice(Splice(s, i, d), j + |d| - 3, e) == Splice(Splice(s, j, e), i, d)
  {
    var t, u := Splice(s, i, d), Splice(s, j, e);
    var j' := j + |d| - 3;
    assert t[..j'] == s[..i] + d + s[i + 3..j];
    assert t[j' + 3..] == s[j + 3..];
    assert u[..i] == s[..i];
    assert u[i + 3..] == s[i + 3..j] + e + s[j + 3..];
  }

  /** The case of `ReplaceCommutes` where `p` comes first in `s`. */
  lemma ReplaceCommutesOrdered(s: string, p: string, d: string, i: nat, q: string, e: string, j: nat)
    requires IsPlaceholder(p) && IsPlaceholder(q) && p != q
    requires DecimalText(d) && Literal(d) && DecimalText(e) && Literal(e)
    requires FirstOccurrence(s, p, i) && FirstOccurrence(s, q, j) && i < j
    ensures ReplaceFirst(ReplaceFirst(s, p, d), q, e) == ReplaceFirst(ReplaceFirst(s, q, e), p, d)
  {
    PlaceholdersDisjoint(s, p, q, i, j);
    var j' := j + |d| - 3;
    assert Shift(i, d, j) == j';
    assert Shift(j, e, i) == i;
    ReplacedFirstOccurrence(s, p, i, d, q, j);
    ReplacedFirstOccurrence(s, q, j, e, p, i);
    SpliceTwice(s, i, d, j, e);
    ReplaceAtFirst(s, p, d, i);
    ReplaceAtFirst(Splice(s, i, d), q, e, j');
    ReplaceAtFirst(s, q, e, j);
    ReplaceAtFirst(Splice(s, j, e), p, d, i);
  }

  /** Filling two different placeholders with numbers gives the same string
      in either order. */
  lemma ReplaceCommutes(s: string, p: string, d: string, q: string, e: string)
    requires IsPlaceholder(p) && IsPlaceholder(q) && p != q
    requires DecimalText(d) && Literal(d) && DecimalText(e) && Literal(e)
    ensures ReplaceFirst(ReplaceFirst(s, p, d), q, e) == ReplaceFirst(ReplaceFirst(s, q, e), p, d)
  {
    match (IndexOf(s, p), IndexOf(s, q))
    case (None, None) =>
    case (Some(i), None) =>
      ReplaceKeepsAbsence(s, p, d, q);
    case (None, Some(j)) =>
      ReplaceKeepsAbsence(s, q, e, p);
    case (Some(i), Some(j)) =>
      PlaceholdersDisjoint(s, p, q, i, j);
      if i < j {
        ReplaceCommutesOrdered(s, p, d, i, q, e, j);
      } else {
        ReplaceCommutesOrdered(s, q, e, j, p, d, i);
      }
  }

  // ---------------------------------------------------------------------
  // Properties of the tile URL

  /** When each placeholder occurs at most once, the URL has none left. */
  lemma TileUrlFillsEveryPlaceholder(url: string, x: int, y: int, z: int)
    requires AtMostOnce(url, PlaceholderX) && AtMostOnce(url, PlaceholderY) && AtMostOnce(url, PlaceholderZ)
    ensures var r := GetTileUrl(url, x, y, z);
      !Contains(r, PlaceholderX) && !Contains(r, PlaceholderY) && !Contains(r, PlaceholderZ)
  {
    var dx, dy, dz := DecimalString(x), DecimalString(y), DecimalString(z);
    LiteralDecimal(x);
    LiteralDecimal(y);
    LiteralDecimal(z);
    var withX := ReplaceFirst(url, PlaceholderX, dx);
    ReplaceRemovesSingle(url, PlaceholderX, dx);
    ReplaceKeepsAtMostOnce(url, PlaceholderX, dx, PlaceholderY);
    ReplaceKeepsAtMostOnce(url, PlaceholderX, dx, PlaceholderZ);
    var withY := ReplaceFirst(withX, PlaceholderY, dy);
    ReplaceRemovesSingle(withX, PlaceholderY, dy);
    ReplaceKeepsAbsence(withX, PlaceholderY, dy, PlaceholderX);
    ReplaceKeepsAtMostOnce(withX, PlaceholderY, dy, PlaceholderZ);
    ReplaceRemovesSingle(withY, PlaceholderZ, dz);
    ReplaceKeepsAbsence(withY, PlaceholderZ, dz, PlaceholderX);
    ReplaceKeepsAbsence(withY, PlaceholderZ, dz, PlaceholderY);
  }
}

=== FILE: tiles.dfy ===
/** Tile addresses and the cache key `tile.join('/')` that the vector layer
    files them under. */
module Tiles {
  import opened Wrappers
  import opened Strings
  import opened Decimal

  /** A tile address `[x, y, z]` as `getTilesInView` hands it out. */
  datatype Tile = Tile(x: int, y: int, z: int)

  /** `[x, y, z].join('/')`: each number printed with `String`, separated
      by slashes. */
  function TileKey(t: Tile): string
  {
    Join([DecimalString(t.x), DecimalString(t.y), DecimalString(t.z)], "/")
  }

  /** Splits a key at its first two slashes and reads the three numbers. */
  function ParseTileKey(key: string): Option<Tile>
  {
    match IndexOf(key, "/")
    case None => None
    case Some(i) =>
      var rest := key[i + 1..];
      match IndexOf(rest, "/")
      case None => None
      case Some(j) =>
        match (ParseInt(key[..i]), ParseInt(rest[..j]), ParseInt(rest[j + 1..]))
        case (Some(x), Some(y), Some(z)) => Some(Tile(x, y, z))
        case _ => None
  }

  /** In `d + "/" + tail` with `d` printed by `String`, the first slash is
      the one right after `d`. */
  lemma FirstSlashAfterNumber(d: string, tail: string)
    requires DecimalText(d)
    ensures IndexOf(d + "/" + tail, "/") == Some(|d|)
  {
    var s := d + "/" + tail;
    assert OccursAt(s, "/", |d|);
    forall j | 0 <= j < |d|
      ensures !OccursAt(s, "/", j)
    {
      assert s[j] == d[j];
    }
  }

  lemma {:induction false} ParseTileKeyRoundTrip(t: Tile)
    ensures ParseTileKey(TileKey(t)) == Some(t)
  {
    var dx, dy, dz := DecimalString(t.x), DecimalString(t.y), DecimalString(t.z);
    var key := TileKey(t);
    JoinThree(dx, dy, dz, "/");
    FirstSlashAfterNumber(dx, dy + "/" + dz);
    var rest := key[|dx| + 1..];
    assert rest == dy + "/" + dz;
    FirstSlashAfterNumber(dy, dz);
    assert key[..|dx|] == dx;
    assert rest[..|dy|] == dy;
    assert rest[|dy| + 1..] == dz;
    ParseDecimalString(t.x);
    ParseDecimalString(t.y);
    ParseDecimalString(t.z);
  }

  /** Two tiles share a cache entry exactly when they are the same tile. */
  lemma TileKeyInjective(a: Tile, b: Tile)
    ensures TileKey(a) == TileKey(b) <==> a == b
  {
    if TileKey(a) == TileKey(b) {
      ParseTileKeyRoundTrip(a);
      ParseTileKeyRoundTrip(b);
    }
  }

  /** The keys of every tile in a list. */
  function KeySet(tiles: seq<Tile>): set<string>
  {
    set t | t in tiles :: TileKey(t)
  }
}

=== FILE: transform.dfy ===
/** `getClipSpacePosition` (src/utils/transform.ts): a pointer position in
    CSS pixels, relative to the canvas, scaled to clip space `[-1, 1]`
    with the y axis pointing up. The DOM reads are parameters. */
module Transform {

  datatype ClipPoint = ClipPoint(x: real, y: real)

  /** What the DOM reports about the canvas: the top-left corner of its
      bounding rect and its CSS width and height. */
  datatype CanvasBox = CanvasBox(left: real, top: real, clientWidth: real, clientHeight: real)

  /** A canvas with an area; the division by its size needs one. */
  predicate Displayed(canvas: CanvasBox)
  {
    canvas.clientWidth > 0.0 && canvas.clientHeight > 0.0
  }

  /** `getClipSpacePosition(ev, canvas)` for `ev.clientX`, `ev.clientY`. */
  function ClipSpacePosition(clientX: real, clientY: real, canvas: CanvasBox): (p: ClipPoint)
    requires Displayed(canvas)
    ensures (p.x + 1.0) * canvas.clientWidth == 2.0 * (clientX - canvas.left)
    ensures (1.0 - p.y) * canvas.clientHeight == 2.0 * (clientY - canvas.top)
    ensures p.x == -1.0 <==> clientX == canvas.left
    ensures p.x == 1.0 <==> clientX == canvas.left + canvas.clientWidth
    ensures p.y == 1.0 <==> clientY == canvas.top
    ensures p.y == -1.0 <==> clientY == canvas.top + canvas.clientHeight
    ensures -1.0 <= p.x <= 1.0 <==> canvas.left <= clientX <= canvas.left + canvas.clientWidth
    ensures -1.0 <= p.y <= 1.0 <==> canvas.top <= clientY <= canvas.top + canvas.clientHeight
  {
    var cssX := clientX - canvas.left;
    var cssY := clientY - canvas.top;
    var normalizedX := cssX / canvas.clientWidth;
    var normalizedY := cssY / canvas.clientHeight;
    var p := ClipPoint(normalizedX * 2.0 - 1.0, normalizedY * -2.0 + 1.0);
    ClipAxis(p.x + 1.0, canvas.clientWidth, cssX);
    ClipAxis(1.0 - p.y, canvas.clientHeight, cssY);
    p
  }

  /** One axis of the conversion: `a` is twice the offset `d` divided by the
      size `w`, so `a` is 0, 2 or in `[0, 2]` exactly when `d` is 0, `w` or
      in `[0, w]`. */
  lemma ClipAxis(a: real, w: real, d: real)
    requires w > 0.0 && a == (d / w) * 2.0
    ensures a * w == 2.0 * d
    ensures a == 0.0 <==> d == 0.0
    ensures a == 2.0 <==> d == w
    ensures 0.0 <= a <= 2.0 <==> 0.0 <= d <= w
  {
    assert (d / w) * w == d;
    assert a * w == 2.0 * d;
    ScaleOrder(a, 0.0, w);
    ScaleOrder(2.0, a, w);
    if a == 2.0 {
      assert d == w;
    }
    if d == w {
      assert (a - 2.0) * w == 0.0;
    }
  }

  /** The centre of the canvas is the origin of clip space. */
  lemma CentreIsOrigin(canvas: CanvasBox)
    requires Displayed(canvas)
    ensures ClipSpacePosition(canvas.left + canvas.clientWidth / 2.0, canvas.top + canvas.clientHeight / 2.0, canvas)
         == ClipPoint(0.0, 0.0)
  {
  }

  /** Moving right increases clip x; moving down decreases clip y. */
  lemma ClipMonotone(x1: real, y1: real, x2: real, y2: real, canvas: CanvasBox)
    requires Displayed(canvas)
    ensures x1 < x2 ==> ClipSpacePosition(x1, y1, canvas).x < ClipSpacePosition(x2, y2, canvas).x
    ensures y1 < y2 ==> ClipSpacePosition(x1, y1, canvas).y > ClipSpacePosition(x2, y2, canvas).y
  {
    var p1, p2 := ClipSpacePosition(x1, y1, canvas), ClipSpacePosition(x2, y2, canvas);
    ScaledOrder(p1.x + 1.0, p2.x + 1.0, canvas.clientWidth, 2.0 * (x1 - canvas.left), 2.0 * (x2 - canvas.left));
    ScaledOrder(1.0 - p1.y, 1.0 - p2.y, canvas.clientHeight, 2.0 * (y1 - canvas.top), 2.0 * (y2 - canvas.top));
  }

  /** Dividing by a positive size keeps the order. */
  lemma ScaledOrder(a: real, b: real, w: real, aw: real, bw: real)
    requires w > 0.0 && a * w == aw && b * w == bw
    ensures aw < bw ==> a < b
  {
    ScaleOrder(a, b, w);
  }

  lemma ScaleOrder(a: real, b: real, w: real)
    requires w > 0.0
    ensures a * w < b * w <==> a < b
  {
    assert (b - a) * w == b * w - a * w;
    if a < b {
      assert (b - a) * w > 0.0;
    } else {
      assert (a - b) * w >= 0.0;
    }
  }

  /** The CSS pixel position a clip-space point comes from. */
  function ClientPosition(p: ClipPoint, canvas: CanvasBox): (real, real)
    requires Displayed(canvas)
  {
    (canvas.left + (p.x + 1.0) * canvas.clientWidth / 2.0,
     canvas.top + (1.0 - p.y) * canvas.clientHeight / 2.0)
  }

  /** The conversion is a bijection between the page and clip space. */
  lemma ClipSpaceRoundTrip(clientX: real, clientY: real, p: ClipPoint, canvas: CanvasBox)
    requires Displayed(canvas)
    ensures ClientPosition(ClipSpacePosition(clientX, clientY, canvas), canvas) == (clientX, clientY)
    ensures var (cx, cy) := ClientPosition(p, canvas); ClipSpacePosition(cx, cy, canvas) == p
  {
    var q := ClipSpacePosition(clientX, clientY, canvas);
    assert (q.x + 1.0) * canvas.clientWidth == 2.0 * (clientX - canvas.left);
    assert (1.0 - q.y) * canvas.clientHeight == 2.0 * (clientY - canvas.top);
    assert (q.x + 1.0) * canvas.clientWidth / 2.0 == clientX - canvas.left;
    assert (1.0 - q.y) * canvas.clientHeight / 2.0 == clientY - canvas.top;
    var c := ClientPosition(q, canvas);
    assert c.0 == clientX && c.1 == clientY;
  }
}

=== FILE: vector_layers.dfy ===
/** The vector layer (src/layers/vector_layer.ts): option validation at
    construction and before every fetch, and the rebuild of the per-layer
    tile cache from the tiles currently in view. */
module VectorLayers {
  import opened Wrappers
  import opened Tiles
  import Constants

  /** The four configuration errors, in the order `checkOptions` tests. */
  datatype OptionsError = UrlNotSet | UnsupportedTileSize | NegativeMinZoom | MaxZoomTooLarge

  /** The text of the `Error` that `checkOptions` throws for each rule. */
  function Message(e: OptionsError): string
  {
    match e
    case UrlNotSet => "url must be set"
    case UnsupportedTileSize => "tileSize must be equal to 256 or 512"
    case NegativeMinZoom => "minZoom must be greater than 0"
    case MaxZoomTooLarge => "maxZoom must be less than 22"
  }

  datatype LayerOptions = LayerOptions(url: string, tileSize: real, minZoom: real, maxZoom: real)

  /** The rule behind each error, stated on its own. */
  predicate Breaks(o: LayerOptions, e: OptionsError)
  {
    match e
    case UrlNotSet => o.url == ""
    case UnsupportedTileSize => o.tileSize != 256.0 && o.tileSize != 512.0
    case NegativeMinZoom => o.minZoom < 0.0
    case MaxZoomTooLarge => o.maxZoom > 22.0
  }

  /** Position of each test in `checkOptions`. */
  function Rank(e: OptionsError): nat
  {
    match e
    case UrlNotSet => 0
    case UnsupportedTileSize => 1
    case NegativeMinZoom => 2
    case MaxZoomTooLarge => 3
  }

  /** The options a layer accepts: a non-empty URL, a tile size of 256 or
      512, `minZoom >= 0` and `maxZoom <= 22`. The two bounds are inclusive
      and need not be ordered. */
  predicate ValidOptions(o: LayerOptions)
  {
    && o.url != ""
    && (o.tileSize == 256.0 || o.tileSize == 512.0)
    && o.minZoom >= 0.0
    && o.maxZoom <= 22.0
  }

  /** `checkOptions()`: throws the error of the first broken rule. */
  function CheckOptions(o: LayerOptions): (r: Outcome<OptionsError>)
    ensures r.Pass? <==> ValidOptions(o)
    ensures r.Fail? ==> Breaks(o, r.error) && forall e :: Rank(e) < Rank(r.error) ==> !Breaks(o, e)
  {
    if o.url == "" then Fail(UrlNotSet)
    else if o.tileSize != 512.0 && o.tileSize != 256.0 then Fail(UnsupportedTileSize)
    else if o.minZoom < 0.0 then Fail(NegativeMinZoom)
    else if o.maxZoom > 22.0 then Fail(MaxZoomTooLarge)
    else Pass
  }

  /** Each rule throws its own text, so the message of a failed check names
      the rule that failed. */
  lemma MessageIdentifiesRule(o: LayerOptions, e: OptionsError)
    requires CheckOptions(o).Fail?
    ensures Message(CheckOptions(o).error) == Message(e) <==> CheckOptions(o).error == e
  {
  }

  /** Options are valid exactly when no rule is broken. */
  lemma ValidMeansNothingBroken(o: LayerOptions)
    ensures ValidOptions(o) <==> forall e :: !Breaks(o, e)
  {
    if !ValidOptions(o) {
      var r := CheckOptions(o);
      assert Breaks(o, r.error);
    }
  }

  /** The default options pass with any non-empty URL. */
  lemma DefaultOptionsValid(url: string)
    requires url != ""
    ensures CheckOptions(LayerOptions(url, Constants.DefaultTileSize, Constants.DefaultMinZoom, Constants.DefaultMaxZoom)).Pass?
  {
  }

  /** Both zoom bounds are inclusive, and the bounds need not be ordered. */
  lemma ZoomBoundsInclusiveAndUnordered(url: string, tileSize: real, minZoom: real, maxZoom: real)
    requires url != "" && (tileSize == 256.0 || tileSize == 512.0)
    ensures CheckOptions(LayerOptions(url, tileSize, 0.0, 22.0)).Pass?
    ensures 0.0 <= maxZoom < minZoom <= 22.0 ==> CheckOptions(LayerOptions(url, tileSize, minZoom, maxZoom)).Pass?
  {
  }

  /** The handle a fetch batch records; it is never handed to a fetch. */
  datatype AbortController = AbortController

  /** A vector layer. `tileData` maps a tile key to what was fetched for
      it; the renderer reference is not modelled (the tiles in view are an
      argument of `FetchData`). */
  datatype VectorLayer<T> = VectorLayer(
    id: string,
    options: LayerOptions,
    tileData: map<string, T>,
    fetchController: Option<AbortController>)

  /** `new VectorLayer(renderer, id, url, tileSize, minZoom, maxZoom)`. */
  function NewVectorLayer<T>(id: string, url: string, tileSize: real, minZoom: real, maxZoom: real): (r: Result<VectorLayer<T>, OptionsError>)
    ensures var o := LayerOptions(url, tileSize, minZoom, maxZoom);
      && (r.Success? <==> ValidOptions(o))
      && (r.Failure? ==> CheckOptions(o) == Fail(r.error))
      && (r.Success? ==> r.value.id == id && r.value.options == o)
      && (r.Success? ==> r.value.tileData == map[] && r.value.fetchController == None)
  {
    var o := LayerOptions(url, tileSize, minZoom, maxZoom);
    match CheckOptions(o)
    case Fail(e) => Failure(e)
    case Pass => Success(VectorLayer(id, o, map[], None))
  }

  /** The argument of one `fetchTile` call. */
  datatype FetchRequest = FetchRequest(tile: Tile, layers: seq<string>, url: string)

  function RequestFor(url: string, t: Tile): FetchRequest
  {
    FetchRequest(t, Constants.LayerNames, url)
  }

  /** The fetches issued for `tiles`: one per listing of a tile whose key
      has no entry in `cache`. Every cache test runs before any fetch
      resolves, so a missing tile listed twice is fetched twice. Every
      cached value is a `fetchTile` result, a plain object and so truthy,
      hence "has an entry" is the source's truthiness test. */
  function MissingRequests<T>(cache: map<string, T>, tiles: seq<Tile>, url: string): (reqs: seq<FetchRequest>)
    ensures RequestsFor(reqs, tiles, url, cache)
  {
    if |tiles| == 0 then []
    else
      var n := |tiles| - 1;
      var init := MissingRequests(cache, tiles[..n], url);
      assert tiles == tiles[..n] + [tiles[n]];
      RequestsSnoc(init, tiles[..n], tiles[n], url, cache);
      if TileKey(tiles[n]) in cache then init else init + [RequestFor(url, tiles[n])]
  }

  /** The requests for a list of tiles, given which tiles are cached: every
      request is for a listed, uncached tile, with the layer URL and layer
      names; every listed, uncached tile has one; a tile listed `k` times
      has `k` requests; and there are no more requests than tiles. */
  ghost predicate RequestsFor<T>(reqs: seq<FetchRequest>, tiles: seq<Tile>, url: string, cache: map<string, T>)
  {
    && (forall q :: q in reqs ==> q.tile in tiles && TileKey(q.tile) !in cache && q == RequestFor(url, q.tile))
    && (forall t :: t in tiles && TileKey(t) !in cache ==> RequestFor(url, t) in reqs)
    && (forall t :: multiset(reqs)[RequestFor(url, t)] == if TileKey(t) in cache then 0 else multiset(tiles)[t])
    && |reqs| <= |tiles|
  }

  /** One more tile listed: its request is added exactly when it is not
      cached. */
  lemma RequestsSnoc<T>(init: seq<FetchRequest>, tiles: seq<Tile>, last: Tile, url: string, cache: map<string, T>)
    requires RequestsFor(init, tiles, url, cache)
    ensures TileKey(last) in cache ==> RequestsFor(init, tiles + [last], url, cache)
    ensures TileKey(last) !in cache ==> RequestsFor(init + [RequestFor(url, last)], tiles + [last], url, cache)
  {
    assert forall t :: t in tiles + [last] <==> t in tiles || t == last;
    assert forall t :: multiset(tiles + [last])[t] == multiset(tiles)[t] + if t == last then 1 else 0;
    if TileKey(last) !in cache {
      RequestsSnocMissing(init, tiles, last, url, cache);
    }
  }

  lemma RequestsSnocMissing<T>(init: seq<FetchRequest>, tiles: seq<Tile>, last: Tile, url: string, cache: map<string, T>)
    requires RequestsFor(init, tiles, url, cache) && TileKey(last) !in cache
    requires forall t :: t in tiles + [last] <==> t in tiles || t == last
    requires forall t :: multiset(tiles + [last])[t] == multiset(tiles)[t] + if t == last then 1 else 0
    ensures RequestsFor(init + [RequestFor(url, last)], tiles + [last], url, cache)
  {
    var reqs := init + [RequestFor(url, last)];
    assert forall q :: q in reqs <==> q in init || q == RequestFor(url, last);
    assert forall t :: multiset(reqs)[RequestFor(url, t)] == multiset(init)[RequestFor(url, t)] + if t == last then 1 else 0;
  }

  /** Every fetch that would be issued succeeds. */
  predicate AllFetched<T>(cache: map<string, T>, tiles: seq<Tile>, url: string, fetch: FetchRequest -> Option<T>)
  {
    forall t :: t in tiles && TileKey(t) !in cache ==> fetch(RequestFor(url, t)).Some?
  }

  /** The value a tile ends up with: the cached one, or the fetch result. */
  function EntryFor<T>(cache: map<string, T>, url: string, fetch: FetchRequest -> Option<T>, t: Tile): T
    requires TileKey(t) in cache || fetch(RequestFor(url, t)).Some?
  {
    if TileKey(t) in cache then cache[TileKey(t)] else fetch(RequestFor(url, t)).value
  }

  /** The new cache: exactly the keys of the tiles in view, each with its
      entry. Tiles are distinct exactly when their keys are, so both
      copies of a tile listed twice write under its one key. The fetch is
      a function of its request, so both copies get the same entry; in
      the source they are separate requests and the later response wins. */
  function Rebuild<T>(cache: map<string, T>, tiles: seq<Tile>, url: string, fetch: FetchRequest -> Option<T>): (m: map<string, T>)
    requires AllFetched(cache, tiles, url, fetch)
    ensures m.Keys == KeySet(tiles)
    ensures forall t :: t in tiles ==> m[TileKey(t)] == EntryFor(cache, url, fetch, t)
  {
    SameKeySameTile(tiles);
    map t | t in tiles :: TileKey(t) := EntryFor(cache, url, fetch, t)
  }

  /** Two tiles of a list that share a key are the same tile. */
  lemma SameKeySameTile(tiles: seq<Tile>)
    ensures forall a, b :: a in tiles && b in tiles && TileKey(a) == TileKey(b) ==> a == b
  {
    forall a, b | a in tiles && b in tiles && TileKey(a) == TileKey(b)
      ensures a == b
    {
      TileKeyInjective(a, b);
    }
  }

  /** The layer after a `fetchData` call, the value it resolves with (or
      the error it rejects with), and the fetches it started. */
  datatype FetchOutcome<T> = FetchOutcome(
    layer: VectorLayer<T>,
    result: Result<map<string, T>, FetchError>,
    requests: seq<FetchRequest>)

  datatype FetchError = InvalidOptions(reason: OptionsError) | TileFetchFailed

  /** `fetchData()` for the tiles in view, with `fetch` standing for
      `fetchTile` (`None`: its promise rejects). The options are checked
      first; a rejected fetch rejects the whole call before the layer is
      touched; otherwise the cache and the controller are replaced. */
  function FetchData<T>(layer: VectorLayer<T>, tiles: seq<Tile>, fetch: FetchRequest -> Option<T>): (r: FetchOutcome<T>)
    ensures r.result.Failure? ==> r.layer == layer
    ensures CheckOptions(layer.options).Fail? ==>
      r.result == Failure(InvalidOptions(CheckOptions(layer.options).error)) && r.requests == []
    ensures CheckOptions(layer.options).Pass? ==>
      r.requests == MissingRequests(layer.tileData, tiles, layer.options.url)
    ensures r.result.Success? <==>
      CheckOptions(layer.options).Pass? && AllFetched(layer.tileData, tiles, layer.options.url, fetch)
    ensures r.result.Success? ==>
      && r.layer.tileData == r.result.value
      && r.layer.fetchController == Some(AbortController)
      && r.layer.id == layer.id && r.layer.options == layer.options
      && r.result.value.Keys == KeySet(tiles)
  {
    match CheckOptions(layer.options)
    case Fail(e) => FetchOutcome(layer, Failure(InvalidOptions(e)), [])
    case Pass =>
      var url := layer.options.url;
      var requests := MissingRequests(layer.tileData, tiles, url);
      if AllFetched(layer.tileData, tiles, url, fetch) then
        var data := Rebuild(layer.tileData, tiles, url, fetch);
        FetchOutcome(layer.(tileData := data, fetchController := Some(AbortController)), Success(data), requests)
      else
        FetchOutcome(layer, Failure(TileFetchFailed), requests)
  }

  /** An entry for a tile no longer in view is dropped. */
  lemma FetchDataDropsStale<T>(layer: VectorLayer<T>, tiles: seq<Tile>, fetch: FetchRequest -> Option<T>, k: string)
    requires CheckOptions(layer.options).Pass? && AllFetched(layer.tileData, tiles, layer.options.url, fetch)
    requires k in layer.tileData && forall t :: t in tiles ==> TileKey(t) != k
    ensures k !in FetchData(layer, tiles, fetch).layer.tileData
  {
  }

  /** A tile with a cached entry keeps it and is not fetched again. */
  lemma FetchDataReusesCached<T>(layer: VectorLayer<T>, tiles: seq<Tile>, fetch: FetchRequest -> Option<T>, t: Tile)
    requires CheckOptions(layer.options).Pass? && AllFetched(layer.tileData, tiles, layer.options.url, fetch)
    requires t in tiles && TileKey(t) in layer.tileData
    ensures FetchData(layer, tiles, fetch).layer.tileData[TileKey(t)] == layer.tileData[TileKey(t)]
    ensures forall q :: q in FetchData(layer, tiles, fetch).requests ==> q.tile != t
  {
  }

  /** A tile without an entry is fetched with the layer's URL and the
      layer names, and the result is stored under its key. */
  lemma FetchDataFetchesMissing<T>(layer: VectorLayer<T>, tiles: seq<Tile>, fetch: FetchRequest -> Option<T>, t: Tile)
    requires CheckOptions(layer.options).Pass?
    requires t in tiles && TileKey(t) !in layer.tileData
    ensures FetchRequest(t, Constants.LayerNames, layer.options.url) in FetchData(layer, tiles, fetch).requests
    ensures FetchData(layer, tiles, fetch).result.Success? ==>
      FetchData(layer, tiles, fetch).layer.tileData[TileKey(t)] == fetch(RequestFor(layer.options.url, t)).value
  {
  }

  /** A second `fetchData` over the same tiles issues no fetch, cannot
      fail, and resolves with the same cache. */
  lemma FetchDataIdempotent<T>(layer: VectorLayer<T>, tiles: seq<Tile>, fetch: FetchRequest -> Option<T>, again: FetchRequest -> Option<T>)
    requires CheckOptions(layer.options).Pass? && AllFetched(layer.tileData, tiles, layer.options.url, fetch)
    ensures var first := FetchData(layer, tiles, fetch);
      var second := FetchData(first.layer, tiles, again);
      && second.requests == []
      && second.result == first.result
      && second.layer == first.layer
  {
    var first := FetchData(layer, tiles, fetch);
    var cache := first.layer.tileData;
    NothingMissing(cache, tiles, layer.options.url);
    FullCacheRebuildsToItself(cache, tiles, layer.options.url, again);
  }

  /** When every tile has an entry, no fetch is issued. */
  lemma {:induction false} NothingMissing<T>(cache: map<string, T>, tiles: seq<Tile>, url: string)
    requires KeySet(tiles) <= cache.Keys
    ensures MissingRequests(cache, tiles, url) == []
  {
    if |tiles| > 0 {
      var n := |tiles| - 1;
      assert forall t :: t in tiles[..n] ==> t in tiles;
      assert TileKey(tiles[n]) in KeySet(tiles);
      NothingMissing(cache, tiles[..n], url);
    }
  }

  /** A cache holding exactly the tiles in view is rebuilt unchanged. */
  lemma FullCacheRebuildsToItself<T>(cache: map<string, T>, tiles: seq<Tile>, url: string, fetch: FetchRequest -> Option<T>)
    requires cache.Keys == KeySet(tiles)
    ensures AllFetched(cache, tiles, url, fetch)
    ensures Rebuild(cache, tiles, url, fetch) == cache
  {
    var m := Rebuild(cache, tiles, url, fetch);
    forall k | k in cache
      ensures m[k] == cache[k]
    {
      var t :| t in tiles && TileKey(t) == k;
    }
  }

  /** A layer that was constructed passes the check `fetchData` repeats. */
  lemma ConstructedLayerPassesRecheck<T>(id: string, url: string, tileSize: real, minZoom: real, maxZoom: real, tiles: seq<Tile>, fetch: FetchRequest -> Option<T>)
    requires NewVectorLayer<T>(id, url, tileSize, minZoom, maxZoom).Success?
    ensures !FetchData(NewVectorLayer<T>(id, url, tileSize, minZoom, maxZoom).value, tiles, fetch).result.Failure?
         || FetchData(NewVectorLayer<T>(id, url, tileSize, minZoom, maxZoom).value, tiles, fetch).result.error == TileFetchFailed
  {
  }

  /** `abortFetch()`: drops the controller if there is one. */
  function AbortFetch<T>(layer: VectorLayer<T>): (r: VectorLayer<T>)
    ensures r.fetchController.None?
    ensures r.id == layer.id && r.options == layer.options && r.tileData == layer.tileData
    ensures layer.fetchController.None? ==> r == layer
  {
    match layer.fetchController
    case Some(_) => layer.(fetchController := None)
    case None => layer
  }

  lemma AbortFetchIdempotent<T>(layer: VectorLayer<T>)
    ensures AbortFetch(AbortFetch(layer)) == AbortFetch(layer)
  {
  }
}

=== FILE: wrappers.dfy ===
/** Failure-carrying datatypes shared by the rest of the model: a thrown
    JavaScript exception becomes a `Failure` or a `Fail`, and an `undefined`
    becomes `None`. */
module Wrappers {

  datatype Option<+T> = None | Some(value: T)

  datatype Result<+R, +E> = Success(value: R) | Failure(error: E)

  /** A check that either passes or names the first reason it failed. */
  datatype Outcome<+E> = Pass | Fail(error: E)
}
